=== FILE: README.md ===
# HODL HERO game core in Dafny

A model of the game logic of HODL HERO, a side-scrolling "flappy" trading game. The
player's token falls under gravity and is kept up by jumps. Obstacle columns
("FUD news", "margin call", "whale alert", "FOMO zone", "ice") scroll in from the
right, and powerups (coffee, shield, rocket, diamond) appear among them. Passing a
column is a winning trade: capital, profit and score grow with a combo multiplier.
Hitting a column or touching the floor is a losing trade: capital is debited, the
combo resets, and the game ends when capital reaches zero. Three event machines run
on top of this: market movers that change the scroll speed, a boss call that must be
tapped away, and a one-shot rare collectible that banks an extra life.

The model covers the following, all written as pure functions over immutable datatypes:

- the 60 Hz tick (`Game.Tick`);
- the `jump`, `cashout`, `initGame` and `applyPowerup` handlers;
- the leaderboard insertion;
- the constant tables.

Every `Math.random()` value one tick consumes is an explicit parameter (`Game.Draws`),
each in [0, 1). Money, score and trade counters are `int`. Positions, speeds and the
obstacle interval are `real`. The combo multiplier, which moves in steps of 0.5
between 1 and 5, is kept as an integer count of half-steps from 2 to 10.

How a tick reads its state. The source's loop is a closure: its guards read the
values captured when the loop was last scheduled, while its writes go through state
setters that apply in the order they are issued, each functional updater seeing the
result of the earlier ones. The model makes both versions explicit:

- `s` is the tick-start snapshot that every guard reads.
- `w` is a working copy that the writes are threaded through, in source order:
  frame count, gravity and floor, spawning, the obstacle map, the powerups, the
  passive score, then the market mover, the boss call and the rare collectible.

A game over raised in the middle of a tick does not stop the rest of that tick, as in
the source.

Modules:

| module | file | what it holds |
|---|---|---|
| `Wrappers` | tables.dfy | `Option` |
| `Tables` | tables.dfy | the constants and tables |
| `Entities` | entities.dfy | columns, powerups and archetype animation |
| `Geometry` | geometry.dfy | collision, pickup radii and scroll speed |
| `Physics` | physics.dfy | the token's fall |
| `Economy` | economy.dfy | the ledger |
| `Spawning` | spawner.dfy | the spawner |
| `Events` | events.dfy | the three event machines |
| `Leaderboard` | leaderboard.dfy | the leaderboard |
| `Game` | game.dfy | the state, the tick and the handlers |

## Model

| member | source | states |
|---|---|---|
| `Tables.PassRewardOf` | App.tsx:529 | the pass reward is the table's entry when it has a non-zero one and 500000 for a missing key; it is always positive |
| `Tables.BonusOf` | App.tsx:256 | the powerup bonus is the table's entry when it has a non-zero one and 100000 for a missing key; it is always positive |
| `Tables.RewardTableCovers` | constants.ts:28-49 | every archetype of `OBSTACLE_TYPES` has an `OBSTACLE_REWARDS` entry, so the 500000 pass fallback is never taken |
| `Tables.RewardSigns` | constants.ts:28-34 | every pass reward is positive and every hit negative; margin is the only percentage entry, at 0.3, and every flat hit is a whole number |
| `Tables.BonusTableCovers` | constants.ts:36-56 | every powerup type has a positive `POWERUP_BONUSES` entry, so the 100000 fallback is never taken |
| `Tables.DifficultyConstants` | constants.ts:19-26 | the minimum interval is at most the initial one, the decay rate lies in (0, 1), the spawn chance is a probability, and the grace period and powerup interval are positive |
| `Tables.GapPlacementRange` | constants.ts:4-11 | the gap-placement range `GAME_HEIGHT - gap - 160` is positive even for the widest gap, 230 |
| `Tables.StartingCapitalSolvent` | constants.ts:15-16 | a fresh game starts strictly above the bankruptcy threshold |
| `Tables.MarketMoverData` | constants.ts:119-176 | every market-mover persona has a quote, and every quote's effect has a `MARKET_EFFECTS` entry |
| `Entities.GapOf` | App.tsx:226 | a zero gap size falls back to `GAP_SIZE`; any other gap size is used as is |
| `Entities.TruncRem` | App.tsx:525 | the remainder of a division rounded toward zero: a = q·n + r for the truncated quotient q, with r in [0, n) for a non-negative dividend and in (−n, 0] for a negative one |
| `Entities.Animate` | App.tsx:519-525 | the whale moves by 2 along its heading (a zero heading counts as +1) and turns round exactly when it ends more than 30 from its centre line; the bomb timer becomes (t + 1) % 30 with the truncating remainder; the other archetypes are unchanged |
| `Entities.AnimatePreservesValid` | App.tsx:519-525 | the whale's bob stays within 32 of its centre line, and the archetype invariant is kept |
| `Entities.Scroll` | App.tsx:518-525 | a column moves left by the speed and its archetype state takes one `Entities.Animate` step; its gap and pass latch are unchanged, and its archetype stays valid |
| `Geometry.CheckCollision` | App.tsx:225-253 | a hit happens exactly when the inset 35×35 box strictly overlaps, horizontally, the column's 60-wide band, and, vertically, lies above the gap top or below the gap bottom |
| `Geometry.InGapNeverHits` | App.tsx:225-253 | a box vertically inside the gap never hits, wherever the column is |
| `Geometry.DisjointColumnNeverHits` | App.tsx:225-253 | a box horizontally clear of the column never hits |
| `Geometry.PassedColumnCannotHit` | App.tsx:527 | a column past the pass line (x + 60 < 80) cannot hit the token at x = 80 |
| `Geometry.Within` | App.tsx:620 | the points are within r exactly when dx² + dy² < r², and then both offsets are below r |
| `Geometry.WithinIsRootTest` | App.tsx:620 | for the non-negative root of dx² + dy², `Geometry.Within` holds exactly when that root is below r: it is the `Math.sqrt(..) < r` test |
| `Geometry.TouchesPowerup` | App.tsx:618-620 | a pickup happens exactly when dx² + dy² < 40², with dx = 80 + 25 − x and dy = y_token + 25 − y; the powerup then lies in the box of half-width 40 around the token's centre |
| `Geometry.TouchesRare` | App.tsx:720-722 | collection happens exactly when dx² + dy² < 60², with dx = 80 + 25 − x and dy = y_token + 25 − 80; the item then lies in the box of half-width 60 around the token's centre |
| `Geometry.Speed` | App.tsx:359-365 | the scroll speed lies in [1.12, 6.825) for every combination of boost, freeze, market effect and chaos draw |
| `Geometry.SpeedComposes` | App.tsx:359-365 | the speed is 3.5 times the boost factor (×1.5), the freeze factor (×0.4) and the market factor (pump ×0.85, dump ×1.2, chaos ×[0.8, 1.3)) |
| `Physics.Fall` | App.tsx:367-406 | the position advances by the pre-tick velocity and the velocity gains gravity. Past the ceiling the token is clamped to 0. Below the floor there are three branches: a banked life is spent (exactly −1); without one the touch is penalised; an invincible token is pinned to the floor and stays invincible. The first two recentre the token with velocity 1.5 × `JUMP_FORCE` and make it invincible |
| `Physics.FreeFallTwoTicks` | App.tsx:367-369 | away from the floor and ceiling, two ticks move the token by 2v + g and raise its velocity by 2g |
| `Economy.FreshLedger` | App.tsx:154-162 | a fresh ledger starts with the starting capital and keeps the high score it is given. Score, profit, trade counts and the biggest win and loss are all 0, and the combo is ×1; the ledger is valid |
| `Economy.Penalty` | App.tsx:581-585 | a margin hit costs floor(capital·0.3), which leaves a positive capital positive; every other archetype costs the magnitude of its flat hit, at least 100000 |
| `Economy.Debit` | App.tsx:381-398 | the game goes bankrupt exactly when capital − penalty ≤ 0, and then capital is exactly 0. Profit drops by the full penalty, one losing trade is counted, the biggest loss becomes the maximum, and the combo resets to ×1. Validity is kept |
| `Economy.FinalReward` | App.tsx:530 | `Math.floor(reward * combo)` is the integer reward·h/2 for h half-steps, and at ×1 or more it is at least the reward |
| `Economy.PassCredit` | App.tsx:527-544 | capital and profit rise by the combo-scaled reward, and score by 50 (100 doubled) × combo. One winning trade is counted and the biggest win becomes the maximum. When the tick-start combo is below ×5 the running combo steps up by a half, capped at ×5; otherwise it is left as it is |
| `Economy.PowerupCredit` | App.tsx:273-274 | capital and profit rise by exactly the powerup's bonus; a rocket also scores 200; every other ledger field, the combo and trade statistics included, is unchanged |
| `Economy.PassiveScore` | App.tsx:648-655 | score gains 10 (20 doubled) × combo; a milestone is reported exactly when a multiple of 1000 lies in (old, new] |
| `Economy.MilestoneMeansCrossing` | App.tsx:651 | the thousands digit rises exactly when a multiple of 1000 is crossed |
| `Economy.BossFailProfit` | App.tsx:696 | floor(profit·0.7) is the integer profit·7/10; the profit never grows in magnitude, a gain stays at least zero and a loss stays below zero |
| `Spawning.FreshSpawner` | App.tsx:195-198 | a fresh spawner is at frame 0 with both spawn marks at 0 and the interval back at 180; it is valid |
| `Spawning.PickIndex` | App.tsx:464 | `Math.floor(r * n)` is the index i with i ≤ r·n < i + 1, which is a valid index |
| `Spawning.PickIndexOnto` | App.tsx:464 | every index i < n is picked, by the draw i/n, so no item of the list is unreachable |
| `Spawning.DecayInterval` | App.tsx:452-455 | the decayed interval is `max(100, interval·0.995)`: at least both 100 and interval·0.995, and equal to one of them; never above an interval of at least 100 |
| `Spawning.AvailableTypes` | App.tsx:460-462 | margin is offered exactly from score 500; every other archetype is always offered |
| `Spawning.GapSizeFor` | App.tsx:465 | up to score 5000 the gap is 230 − 30·score/5000, narrowing linearly; from 5000 on it is 200; for scores from 0 it lies between 200 and 230 |
| `Spawning.GapNarrowsWithScore` | App.tsx:465 | a higher score never widens the gap |
| `Spawning.PlaceGap` | App.tsx:471 | the gap top leaves at least 80 clear above and below; the draw 0 places it at 80 |
| `Spawning.PlaceGapIncreases` | App.tsx:471 | a larger draw places the gap strictly lower |
| `Spawning.PlaceGapOnto` | App.tsx:471 | every gap top leaving 80 clear above and below is placed by some draw |
| `Spawning.SpawnObstacle` | App.tsx:460-490 | a new column enters at the right edge, unpassed, with the archetype at the drawn index of those the score allows, the score's gap size `Spawning.GapSizeFor`, its gap top placed from the draw by `Spawning.PlaceGap`, the archetype's starting state, and a valid gap |
| `Spawning.EveryTypeSpawns` | App.tsx:460-464 | every archetype the score allows spawns for some draw; from score 500 that includes the margin call |
| `Spawning.SpawnObstacleStep` | App.tsx:451-494 | nothing happens before the grace period ends. After it, the interval decays every tick, and a column spawns exactly when frame − lastObstacle > interval, which resets lastObstacle |
| `Spawning.SpawnPowerupStep` | App.tsx:496-512 | a powerup spawns exactly when more than 200 frames have passed since the last one and the gate draw is below 0.5; it enters at the right edge with the kind at the drawn index of the catalogue and the height `Spawning.PowerupHeight` of the height draw |
| `Spawning.PowerupHeight` | App.tsx:507 | the height lies in [100, 500), and the draw is its fraction of that band |
| `Spawning.EveryPowerupSpawns` | App.tsx:496-512 | when a powerup is due, every kind at every height in [100, 500) is spawned by some pair of draws |
| `Spawning.IntervalStaysInRange` | App.tsx:451-455 | over any number of decays the interval stays in [100, 180] and never grows |
| `Events.IdleMover` | App.tsx:181-184 | the reset mover slot is empty, has no effect and is valid |
| `Events.MoverStep` | App.tsx:658-682 | the trigger, which needs no active mover, score > 200, 300 frames of cooldown and a 1% draw, starts a mover for 180 ticks with the drawn persona and quote (`Events.DrawnPick`) and that quote's effect. An active mover counts down and clears its effect when the count runs out. At most one mover is active |
| `Events.DrawnPick` | App.tsx:664-667 | the persona is the drawn index of the catalogue and the quote the drawn index of that persona's quotes; the pick is valid |
| `Events.EveryPickDrawn` | App.tsx:658-667 | when the trigger fires, every persona and every one of its quotes is drawn by some pair of draws |
| `Events.MoverLastsItsTimer` | App.tsx:669-681 | an active mover stays active with its effect for exactly its remaining timer, then clears |
| `Events.BossTap` | App.tsx:305-328 | a tap adds 12, clamped to 100; it survives the call exactly when the pre-tap progress + 12 ≥ 100, which ends the call; the progress stays in [0, 100] |
| `Events.BossStep` | App.tsx:685-702 | the trigger starts a call at progress 0 with 5 seconds. An active call decays by 0.5, not below 0, and counts a second down on frames divisible by 60. It fails exactly when that count reaches ≤ 0, which ends it |
| `Events.TapsAccumulate` | App.tsx:305-328 | from a fresh call, n ≤ 8 taps leave the progress at 12n with the call still ringing |
| `Events.TapTimesSplit` | App.tsx:305-328 | n taps followed by m taps are n + m taps |
| `Events.NineTapsSurvive` | App.tsx:305-328 | without decay in between, the ninth tap survives the call, at progress 100 |
| `Events.RareStep` | App.tsx:705-728 | a collected item never changes. The trigger puts the item at 900; an idle item whose trigger does not fire stays as it is. It moves left by 2 per tick and leaves past −100 without being collected, so it can return. It is collected exactly when it is active, not yet collected and within reach, and `collected` is set exactly when it is collected |
| `Events.CollectedStaysCollected` | App.tsx:705-708 | once collected, any run of ticks leaves the rare item unchanged |
| `Leaderboard.InitialBoardValid` | App.tsx:107-111 | the starting table is sorted and within capacity |
| `Leaderboard.InsertDesc` | App.tsx:769 | a stable insertion step adds exactly the one entry |
| `Leaderboard.InsertDescSorted` | App.tsx:769 | insertion keeps a sorted table sorted |
| `Leaderboard.InsertIndex` | App.tsx:769 | the insert position comes after every row scoring at least as much and before the first row scoring less |
| `Leaderboard.InsertDescShape` | App.tsx:769 | the new entry sits at its insert position, with the old rows before and after it in their old order |
| `Leaderboard.SortDesc` | App.tsx:769 | the sort is a permutation and is sorted by score, highest first |
| `Leaderboard.SortDescOfSorted` | App.tsx:769 | sorting an already sorted table changes nothing |
| `Leaderboard.Take` | App.tsx:770 | `slice(0, n)` is the prefix of length min(len, n) |
| `Leaderboard.Trim` | App.tsx:758 | the result is a slice of the name with only white space cut away before and after it. It is empty exactly when the name is all white space, and otherwise starts and ends with a visible character |
| `Leaderboard.TrimUnique` | App.tsx:758 | any slice of the name with only white space around it, empty or with visible characters at both ends, is the trim: the contract of `Leaderboard.Trim` determines its result |
| `Leaderboard.EntryName` | App.tsx:758-781 | the stored name is the trimmed name, or "Anonymous" when nothing is left; it never starts with white space |
| `Leaderboard.InsertLeaderboard` | App.tsx:757-785 | the new table is sorted, holds min(len + 1, 10) rows, and holds only old rows and the new entry |
| `Leaderboard.InsertIntoValidBoard` | App.tsx:757-785 | on a sorted table the insertion is one stable insertion step cut to ten; the entry survives exactly when fewer than ten rows go before it |
| `Leaderboard.DeservesPrompt` | App.tsx:218-220 | the name prompt is offered exactly when the table has room or the score beats its lowest row |
| `Leaderboard.PromptedScoreIsRanked` | App.tsx:218-220 | on a valid table, a game offered the prompt always makes it onto the table |
| `Game.InitGame` | App.tsx:151-199 | the reset gives a fresh ledger with the old high score, a centred token at rest, no columns or powerups, an idle market mover with its clock at 0, no boss call, the rare item idle at the right edge, and a fresh spawner. It keeps the banked extra lives |
| `Game.StartGame` | App.tsx:201-206 | starting is the reset followed by play, which is a valid state |
| `Game.Opening` | App.tsx:45-104 | the page opens on the menu with a valid state, a fresh ledger and no banked life |
| `Game.PhysicsPhase` | App.tsx:367-406 | the token moves as `Physics.Fall` says; only a penalised floor touch debits 300000, against the closure score, and it ends the game exactly when the debit bankrupts it |
| `Game.SpawnColumn` | App.tsx:451-494 | the spawner and the appended column are exactly what `Spawning.SpawnObstacleStep` gives for the tick-start score; a spawned column is at the right edge, with no margin below score 500 |
| `Game.SpawnBonus` | App.tsx:496-512 | the spawner and the appended powerup are exactly what `Spawning.SpawnPowerupStep` gives; nothing else changes |
| `Game.SpawnPhase` | App.tsx:451-512 | the two spawners in source order: the columns gain the column step's new column, the powerups the powerup step's, and the spawner is the result of both steps |
| `Game.PreludeSpawnsWhenDue` | App.tsx:451-494 | a tick adds a column exactly when one is due (past the grace period, more frames since the last column than the decayed interval); it enters at the right edge, unpassed, with the tick-start score's gap size placed from the draw |
| `Game.MoveColumn` | App.tsx:518-528 | a column scrolls and its archetype takes one animation step, and `passed` latches exactly when it is or becomes left of the pass line |
| `Game.CreditedAtMostOnce` | App.tsx:527-528 | over any run of ticks a column is credited at most once, and never after it latched |
| `Game.ObstacleHit` | App.tsx:574-608 | a banked life, as the hit branch reads it, is spent with no change to the ledger; otherwise the archetype's penalty, computed on the capital at tick start, is debited, and the game ends exactly when that bankrupts it |
| `Game.PassStep` | App.tsx:527-544 | the pass credit is booked exactly when the column newly crosses the line, at the tick-start combo and double-points status |
| `Game.ResolveOne` | App.tsx:517-609 | one column's turn: the column's own update and one winning trade exactly when it crosses the line; the token is frozen exactly when it was or the moved ice column freezes it; on a collision the hit of `Game.ObstacleHit` follows the pass and the freeze, spending a life or booking one loss; without one, no life or loss changes |
| `Game.ResolveAll` | App.tsx:515-612 | the kept columns are exactly the moved ones still right of −60, in order (`map`, then `filter`). Winning trades grow by the number crossing the line, and each colliding column either spends a life or books one loss |
| `Game.ObstaclePhase` | App.tsx:515-612 | the phase replaces the columns by the moved ones still on screen, with the same win and hit accounting, and keeps the invariant but for the life count |
| `Game.LivesAbsorbHits` | App.tsx:574-603 | reading the running count, banked lives take the first hits and every later hit is a loss: with L lives and h hits, max(0, L − h) lives remain and max(0, h − L) losses are booked |
| `Game.StaleLivesAbsorbAll` | App.tsx:574-580 | as written, with a life banked at tick start every hit of the map spends one, so L − h lives remain and no loss is booked |
| `Game.ResolveAllIgnoresStaleness` | App.tsx:575 | with no life banked, the tick-start and running life counts give the same obstacle phase |
| `Game.ApplyPowerup` | App.tsx:255-302 | capital and profit gain the bonus, and exactly the powerup's own effect switches on: coffee the speed boost, shield invincibility, rocket a kick of −20 and 200 score, diamond double points |
| `Game.CollectAll` | App.tsx:615-628 | the kept powerups are exactly those out of reach and right of −40, in order, each moved by the speed (`filter`, then `map`). Capital and profit both gain exactly the bonuses of those within reach, and the score 200 per rocket within reach; nothing else in the ledger changes. Each kind within reach switches its own flag on, and a rocket sets the velocity to −20; nothing else of the token changes |
| `Game.PowerupPhase` | App.tsx:615-628 | the phase replaces the powerups by the kept and moved ones, credits the collected bonuses and the rocket score, leaves the rest of the ledger alone, switches on the flags of the kinds within reach, and keeps the invariant but for the life count |
| `Game.ScorePhase` | App.tsx:648-655 | only on every 30th frame does the score gain 10 (20 doubled) × the tick-start combo |
| `Game.EventPhase` | App.tsx:657-728 | the mover, boss and rare machines each take one step, deciding on the tick-start state. A failed boss call cuts profit to floor(profit · 0.7), and no other ledger field but score changes. Collecting the rare item banks exactly one life and adds 1000 score; nothing else about the token changes; once the item is collected, the phase leaves it and the token alone |
| `Game.Advance` | App.tsx:357-729 | with either reading of the life count, a tick advances the frame, never lowers score or losses, ends a game only on a losing trade, and keeps the invariant but for the life count; with the running count it keeps the whole invariant |
| `Game.Tick` | App.tsx:354-357 | the loop runs only in play, where a frame passes on every tick |
| `Game.TickPreservesValid` | App.tsx:357-729 | the tick keeps the invariant: capital ≥ 0, the combo in [×1, ×5], no negative life count, columns and powerups in their spawn ranges, and a game in play solvent |
| `Game.TickProgresses` | App.tsx:357-729 | the tick never lowers score or the loss count, and a game in play ends only on a losing trade booked during the tick |
| `Game.TickCollectsRare` | App.tsx:715-727 | a tick in play collects the rare item, not collected before, exactly when it is active and within reach of the token's tick-start height |
| `Game.TickKeepsCollected` | App.tsx:705-715 | once collected, the rare item is left alone by every later tick |
| `Game.TickAsWritten` | App.tsx:357-729 | the tick as written, reading the tick-start life count on a hit: it advances the frame, never lowers score or losses, and keeps capital ≥ 0, the combo in [×1, ×5] and the rest of the invariant but the life count |
| `Game.AsWrittenAgreesWithoutLives` | App.tsx:372-575 | without a banked life at tick start, the tick as written equals the corrected tick |
| `Game.LivesGoNegativeAsWritten` | App.tsx:372-576 | as written, a floor touch and a column hit in the same tick both spend the one banked life, leaving −1 |
| `Game.DoubleSpendCorrected` | App.tsx:575-603 | corrected, the same tick spends the life on the floor, leaves 0, and books the hit as a losing trade |
| `Game.DoubleSpendHasWitness` | App.tsx:357-612 | a valid state meeting that set-up exists: one banked life, the token at 545 falling at 10, and a FUD column at x = 100 |
| `Game.Jump` | App.tsx:304-350 | during a boss call a press is a tap that changes only the call and scores 500 on survival; the token does not jump. Otherwise play sets the velocity to −11, the menu starts a game, and game over ignores the press. Validity is kept |
| `Game.BossBonusOnce` | App.tsx:305-328 | after the winning tap the call is over, so the next press does not score again |
| `Game.Cashout` | App.tsx:208-223 | cashing out ends the game by choice with the ledger as it stands and raises the high score to the score; the prompt decision is the leaderboard's |
| `Game.CashoutPromptRanks` | App.tsx:208-223 | a cash-out that offers the name prompt leads to a table on which the score ranks |

## Left out

- Audio (the sound manager): every `soundManager` call is dropped.
- Cosmetic state: candles, particles, floating texts, quotes and headlines, the market index, the player's expression and display strings. These only feed the renderer.
- Expiry of the invincible, speed-boost, double-points and frozen flags. Host timers clear these, so the model treats them as state that the environment may clear between ticks.
- The delayed name prompt (App.tsx:221): `Leaderboard.DeservesPrompt` decides whether it is shown, not when.
- Keyboard and touch plumbing, the menu animation interval and the leaderboard screen navigation: these are input wiring, not game logic.
- React's scheduling: updaters are composed in the order the source issues them, and guards read the tick-start snapshot. Effect re-subscription timing is not modelled.
- Floating-point rounding: geometry uses exact reals and money uses integers.
- The leaderboard's `character` marker and the date computation: the date is a parameter.
- The whale's vertical bob is kept but does not affect collision, as in the source.
- The FOMO column's `flameIntensity` draw (App.tsx:489) and the FUD headline draw (App.tsx:475-480) are cosmetic: no guard reads them, so they are not among the draws.
- `Game.InitGame` keeps the banked extra lives between games, because the reset in the source does not clear them.
- `Game.Cashout` does not model the sound choice based on profit sign, because it is audio only.

## Findings

| source | as written | input that shows it | evidently intended | confidence | as-written member | corrected member |
|---|---|---|---|---|---|---|
| App.tsx:575 | the obstacle-hit branch tests the extra-life count captured at tick start, which the floor branch (App.tsx:372) tests too, so both spend the same life in one tick | `Game.LifeAndColumn` with `Game.EVEN_DRAWS`: one banked life, token at y = 545 falling at 10, FUD column at x = 100 | a banked life absorbs one event; the second event of the tick sees none left and is a penalised hit | medium, not executed | `Game.LivesGoNegativeAsWritten` | `Game.DoubleSpendCorrected` |

`Game.StaleLivesAbsorbAll` shows that, as written, every column hit in one tick spends a
life once one was banked at tick start. Whether two columns can be hit in one tick is not
established: columns spawn more than 100 frames apart, which may keep two of them out of
the hit zone at once, so only the floor touch plus one column is claimed. The corrected
`Game.Tick` reads the running life count in the hit branch. `Game.TickPreservesValid`
shows that, with this reading, the count is never negative.

=== FILE: economy.dfy ===
/**
 The economy ledger: capital, profit, score, the combo multiplier and the trade
 statistics, with the bookkeeping of a penalised hit (App.tsx:380-398, 581-603),
 an obstacle pass (App.tsx:527-544), a powerup bonus (App.tsx:256, 273-274, 292),
 the passive score tick (App.tsx:648-655) and the boss-call failure (App.tsx:696).
 */
module Economy {
  import opened Tables

  /** The combo multiplier is kept in half-steps: 2 stands for ×1, 10 for ×5. */
  const COMBO_ONE: int := 2
  const COMBO_MAX: int := 10

  /** The multiplier a half-step count stands for. */
  function ComboValue(h: int): real { h as real / 2.0 }

  datatype Ledger = Ledger(
    capital: int,
    profit: int,
    score: int,
    highScore: int,
    combo: int,
    totalTrades: int,
    winTrades: int,
    lossTrades: int,
    biggestWin: int,
    biggestLoss: int)

  /** What every tick keeps: solvency, the combo range and consistent trade statistics. */
  predicate LedgerValid(l: Ledger) {
    && l.capital >= 0
    && COMBO_ONE <= l.combo <= COMBO_MAX
    && l.score >= 0
    && l.highScore >= 0
    && l.winTrades >= 0 && l.lossTrades >= 0
    && l.totalTrades == l.winTrades + l.lossTrades
    && l.biggestWin >= 0 && l.biggestLoss >= 0
  }

  function Max(a: int, b: int): int { if a >= b then a else b }
  function AbsR(x: real): real { if x < 0.0 then -x else x }

  /** The ledger of a fresh game (App.tsx:154-162); the high score survives from earlier games. */
  function FreshLedger(highScore: int): (l: Ledger)
    ensures highScore >= 0 ==> LedgerValid(l)
    ensures l.capital == STARTING_CAPITAL && l.capital > MIN_CAPITAL
    ensures l.highScore == highScore
    ensures l.score == 0 && l.profit == 0 && l.combo == COMBO_ONE && ComboValue(l.combo) == 1.0
    ensures l.totalTrades == l.winTrades == l.lossTrades == 0 && l.biggestWin == l.biggestLoss == 0
  {
    Ledger(STARTING_CAPITAL, 0, 0, highScore, COMBO_ONE, 0, 0, 0, 0, 0)
  }

  /** floor(c · 0.3) is the integer c·3/10. */
  lemma FloorThreeTenths(c: int)
    ensures ((c as real) * 0.3).Floor == c * 3 / 10
  {
    var q, m := c * 3 / 10, c * 3 % 10;
    assert c * 3 == 10 * q + m;
    assert (c as real) * 0.3 == (q as real) + (m as real) / 10.0;
  }

  /** floor(p · 0.7) is the integer p·7/10. */
  lemma FloorSevenTenths(p: int)
    ensures ((p as real) * 0.7).Floor == p * 7 / 10
  {
    var q, m := p * 7 / 10, p * 7 % 10;
    assert p * 7 == 10 * q + m;
    assert (p as real) * 0.7 == (q as real) + (m as real) / 10.0;
  }

  /** floor(r · h/2) is the integer r·h/2. */
  lemma FloorHalves(r: int, h: int)
    ensures ((r as real) * ComboValue(h)).Floor == r * h / 2
  {
    var q, m := r * h / 2, r * h % 2;
    assert r * h == 2 * q + m;
    assert (r as real) * ComboValue(h) == (q as real) + (m as real) / 2.0;
  }

  /**
   The penalty of a hit on an archetype, reading the capital seen at the start of the
   tick: a percentage archetype costs floor(capital · |hit|), any other |hit|.
   */
  function Penalty(k: ObstacleKind, capital: int): (p: int)
    ensures k == Margin ==> p == capital * 3 / 10
    ensures k != Margin ==> p == -(OBSTACLE_REWARDS[k.Key()].hit.Floor) && p >= 100000
    ensures capital >= 0 ==> p >= 0
    ensures k == Margin && capital > 0 ==> capital - p > MIN_CAPITAL
  {
    RewardSigns(k);
    var def := OBSTACLE_REWARDS[k.Key()];
    if def.hitType == Percent then
      FloorThreeTenths(capital);
      ((capital as real) * AbsR(def.hit)).Floor
    else
      AbsR(def.hit).Floor
  }

  /**
   The bookkeeping of a penalised hit or floor touch: capital is debited and clamped
   at zero, which ends the game; profit takes the full penalty; a losing trade is
   counted; the combo resets to ×1. `closureScore` is the score seen at tick start,
   which becomes the high score on bankruptcy if it beats it.
   */
  function Debit(l: Ledger, penalty: int, closureScore: int): (r: (Ledger, bool))
    ensures r.1 <==> l.capital - penalty <= MIN_CAPITAL
    ensures r.1 ==> r.0.capital == 0
    ensures !r.1 ==> r.0.capital == l.capital - penalty
    ensures r.0.capital >= 0
    ensures r.0.profit == l.profit - penalty
    ensures r.0.totalTrades == l.totalTrades + 1 && r.0.lossTrades == l.lossTrades + 1
    ensures r.0.winTrades == l.winTrades && r.0.biggestWin == l.biggestWin
    ensures r.0.biggestLoss >= l.biggestLoss && r.0.biggestLoss >= penalty
    ensures r.0.biggestLoss == l.biggestLoss || r.0.biggestLoss == penalty
    ensures r.0.combo == COMBO_ONE
    ensures r.0.score == l.score
    ensures r.0.highScore == (if r.1 && closureScore > l.highScore then closureScore else l.highScore)
    ensures LedgerValid(l) && penalty >= 0 && closureScore >= 0 ==> LedgerValid(r.0)
  {
    var nc := l.capital - penalty;
    var bankrupt := nc <= MIN_CAPITAL;
    var l' := l.(
      capital := if bankrupt then 0 else nc,
      highScore := if bankrupt && closureScore > l.highScore then closureScore else l.highScore,
      profit := l.profit - penalty,
      totalTrades := l.totalTrades + 1,
      lossTrades := l.lossTrades + 1,
      biggestLoss := Max(l.biggestLoss, penalty),
      combo := COMBO_ONE);
    (l', bankrupt)
  }

  /** `base · combo` for an even base: always a whole number, so score stays an integer. */
  function ComboTimes(base: int, h: int): (n: int)
    requires base % 2 == 0
    ensures n as real == (base as real) * ComboValue(h)
    ensures base >= 0 && h >= 0 ==> n >= 0
  {
    var b := base / 2;
    assert base == 2 * b;
    b * h
  }

  /** `Math.floor(reward * combo)`: the pass credit for a reward at a combo. */
  function FinalReward(reward: int, h: int): (n: int)
    ensures n == reward * h / 2
    ensures reward > 0 && h >= COMBO_ONE ==> n >= reward
  {
    FloorHalves(reward, h);
    ((reward as real) * ComboValue(h)).Floor
  }

  /**
   The credit of an obstacle pass, at the combo and double-points status seen at tick
   start: capital and profit rise by the combo-scaled archetype reward, score by
   50 (100 doubled) times the combo, a winning trade is counted, and the combo steps
   up by one half unless it was already at the cap.
   */
  function PassCredit(l: Ledger, k: ObstacleKind, closureCombo: int, doublePoints: bool): (l': Ledger)
    ensures l'.capital - l.capital == l'.profit - l.profit == PassRewardOf(k.Key()) * closureCombo / 2
    ensures closureCombo >= COMBO_ONE ==> l'.capital > l.capital
    ensures closureCombo >= 0 ==> l'.score >= l.score
    ensures (l'.score - l.score) as real == (if doublePoints then 100.0 else 50.0) * ComboValue(closureCombo)
    ensures l'.totalTrades == l.totalTrades + 1 && l'.winTrades == l.winTrades + 1
    ensures l'.lossTrades == l.lossTrades && l'.biggestLoss == l.biggestLoss
    ensures l'.biggestWin == Max(l.biggestWin, l'.capital - l.capital)
    ensures closureCombo >= COMBO_MAX ==> l'.combo == l.combo
    ensures closureCombo < COMBO_MAX && l.combo + 1 < COMBO_MAX ==> l'.combo == l.combo + 1
    ensures closureCombo < COMBO_MAX && l.combo + 1 >= COMBO_MAX ==> l'.combo == COMBO_MAX
    ensures l.combo <= COMBO_MAX ==> l.combo <= l'.combo <= COMBO_MAX
    ensures l'.highScore == l.highScore
    ensures LedgerValid(l) && closureCombo >= 0 ==> LedgerValid(l')
  {
    var finalReward := FinalReward(PassRewardOf(k.Key()), closureCombo);
    var gain := ComboTimes(if doublePoints then 100 else 50, closureCombo);
    var combo' := if closureCombo < COMBO_MAX then (if l.combo + 1 < COMBO_MAX then l.combo + 1 else COMBO_MAX) else l.combo;
    l.(
      capital := l.capital + finalReward,
      profit := l.profit + finalReward,
      totalTrades := l.totalTrades + 1,
      winTrades := l.winTrades + 1,
      biggestWin := Max(l.biggestWin, finalReward),
      score := l.score + gain,
      combo := combo')
  }

  /** The money side of collecting a powerup: capital and profit both gain its bonus; a rocket also scores 200. */
  function PowerupCredit(l: Ledger, k: PowerupKind): (l': Ledger)
    ensures l'.capital - l.capital == l'.profit - l.profit == POWERUP_BONUSES[k.Key()]
    ensures l'.capital > l.capital
    ensures l'.score == l.score + (if k == Rocket then 200 else 0)
    ensures l' == l.(capital := l'.capital, profit := l'.profit, score := l'.score)
    ensures LedgerValid(l) ==> LedgerValid(l')
  {
    BonusTableCovers(k);
    var bonus := BonusOf(k.Key());
    l.(capital := l.capital + bonus, profit := l.profit + bonus,
       score := if k == Rocket then l.score + 200 else l.score)
  }

  /**
   The passive score tick: score gains 10 (20 doubled) times the combo; `milestone`
   says whether the new score reached a multiple of 1000 the old one was below.
   */
  function PassiveScore(score: int, combo: int, doublePoints: bool): (r: (int, bool))
    ensures combo >= 0 ==> r.0 >= score
    ensures (r.0 - score) as real == (if doublePoints then 20.0 else 10.0) * ComboValue(combo)
    ensures r.1 <==> exists m :: score < m * 1000 <= r.0
  {
    var ns := score + ComboTimes(if doublePoints then 20 else 10, combo);
    var milestone := ns / 1000 > score / 1000;
    MilestoneMeansCrossing(score, ns);
    (ns, milestone)
  }

  /** The thousands digit rises exactly when a multiple of 1000 lies in (s, ns]. */
  lemma MilestoneMeansCrossing(s: int, ns: int)
    ensures ns / 1000 > s / 1000 <==> exists m :: s < m * 1000 <= ns
  {
    if ns / 1000 > s / 1000 {
      var m := ns / 1000;
      assert s < m * 1000 <= ns;
    }
    if exists m :: s < m * 1000 <= ns {
      var m :| s < m * 1000 <= ns;
      assert s / 1000 < m;
      assert m <= ns / 1000;
    }
  }

  /**
   The boss-call failure keeps floor(profit · 0.7): the profit never grows in magnitude;
   a gain stays at least zero and a loss stays below zero.
   */
  function BossFailProfit(profit: int): (r: int)
    ensures r == profit * 7 / 10
    ensures profit >= 0 ==> 0 <= r <= profit
    ensures profit < 0 ==> profit <= r < 0
  {
    FloorSevenTenths(profit);
    ((profit as real) * 0.7).Floor
  }
}

=== FILE: entities.dfy ===
/**
 The moving entities of the playfield (types.ts `Obstacle` and `Powerup`) and the
 per-tick animation of an obstacle's archetype-specific state (App.tsx:518-525).
 The optional per-archetype fields of the source become one tagged union.
 */
module Entities {
  import opened Tables

  /** Archetype-specific state: the margin bomb's blink timer and the whale's bob. */
  datatype Archetype =
    | FudNews
    | MarginBomb(bombTimer: int)
    | WhaleBob(whaleY: int, whaleDir: int)
    | FomoZone
    | IceZone
  {
    function Kind(): ObstacleKind {
      match this
      case FudNews => Fud
      case MarginBomb(_) => Margin
      case WhaleBob(_, _) => Whale
      case FomoZone => Fomo
      case IceZone => Ice
    }
  }

  /** An obstacle column: a gap of height `dynamicGap` starting at `gapY`, at horizontal `x`. */
  datatype Obstacle = Obstacle(x: real, gapY: real, dynamicGap: real, arch: Archetype, passed: bool)

  datatype Powerup = Powerup(x: real, y: real, kind: PowerupKind)

  /** `obstacle.dynamicGapSize || GAP_SIZE`: a zero gap size falls back to the default. */
  function GapOf(o: Obstacle): (g: real)
    ensures o.dynamicGap != 0.0 ==> g == o.dynamicGap
    ensures o.dynamicGap == 0.0 ==> g == GAP_SIZE
  {
    if o.dynamicGap != 0.0 then o.dynamicGap else GAP_SIZE
  }

  /**
   The remainder of the source language's `%`: the division truncates toward zero, so
   the remainder keeps the sign of `a` and completes the truncated quotient.
   */
  function TruncRem(a: int, n: int): (r: int)
    requires n > 0
    ensures a >= 0 ==> 0 <= r < n
    ensures a < 0 ==> -n < r <= 0
    ensures a == TruncQuot(a, n) * n + r
    ensures a >= 0 ==> r == a % n
  {
    if a >= 0 then a % n else -((-a) % n)
  }

  /** The quotient of the source language's `/` on integers, rounded toward zero. */
  function TruncQuot(a: int, n: int): int
    requires n > 0
  {
    if a >= 0 then a / n else -((-a) / n)
  }

  /** The whale's bob invariant: an even offset within 30 of the centre, or one step past it heading back. */
  predicate WhaleOk(y: int, dir: int) {
    && y % 2 == 0
    && (dir == 1 || dir == -1)
    && (-30 <= y <= 30 || (y == 32 && dir == -1) || (y == -32 && dir == 1))
  }

  predicate ArchetypeValid(a: Archetype) {
    match a
    case MarginBomb(t) => 0 <= t < 30
    case WhaleBob(y, d) => WhaleOk(y, d)
    case _ => true
  }

  /** The whale's heading as the source reads it: a missing (zero) direction counts as down, +1. */
  function Heading(dir: int): int { if dir != 0 then dir else 1 }

  /**
   One tick of archetype animation: the whale bobs by 2 along its heading and turns
   round once it is more than 30 from its centre line; the bomb timer counts modulo 30;
   the other archetypes have nothing to animate.
   */
  function Animate(a: Archetype): (r: Archetype)
    ensures r.Kind() == a.Kind()
    ensures a.MarginBomb? ==> r.bombTimer == TruncRem(a.bombTimer + 1, 30)
    ensures a.MarginBomb? && a.bombTimer >= 0 ==> r.bombTimer == (a.bombTimer + 1) % 30 && 0 <= r.bombTimer < 30
    ensures a.WhaleBob? ==> r.whaleY == a.whaleY + 2 * Heading(a.whaleDir)
    ensures a.WhaleBob? && (r.whaleY > 30 || r.whaleY < -30) ==> r.whaleDir == -Heading(a.whaleDir)
    ensures a.WhaleBob? && -30 <= r.whaleY <= 30 ==> r.whaleDir == a.whaleDir
    ensures !a.WhaleBob? && !a.MarginBomb? ==> r == a
  {
    match a
    case WhaleBob(y, d) =>
      var dir := Heading(d);
      var y' := y + dir * 2;
      if y' > 30 || y' < -30 then WhaleBob(y', -dir) else WhaleBob(y', d)
    case MarginBomb(t) =>
      MarginBomb(TruncRem(t + 1, 30))
    case _ => a
  }

  /** Animation keeps the whale within 32 of its centre line and the bomb timer in [0, 30). */
  lemma AnimatePreservesValid(a: Archetype)
    ensures ArchetypeValid(a) ==> ArchetypeValid(Animate(a))
    ensures ArchetypeValid(a) && a.WhaleBob? ==> -32 <= Animate(a).whaleY <= 32
  {
  }

  /** One tick of scrolling: the column moves left by `speed`; nothing but its position and animation changes. */
  function Scroll(o: Obstacle, speed: real): (r: Obstacle)
    ensures r.x == o.x - speed
    ensures r.arch == Animate(o.arch)
    ensures r.gapY == o.gapY && r.dynamicGap == o.dynamicGap && r.passed == o.passed
    ensures r.arch.Kind() == o.arch.Kind()
    ensures ArchetypeValid(o.arch) ==> ArchetypeValid(r.arch)
  {
    AnimatePreservesValid(o.arch);
    o.(x := o.x - speed, arch := Animate(o.arch))
  }

  /** Where the spawner can put a column: a gap 200 to 230 high with at least 80 clear above and below. */
  predicate ObstacleValid(o: Obstacle) {
    && 200.0 <= GapOf(o) <= 230.0
    && 80.0 <= o.gapY
    && o.gapY + GapOf(o) < GAME_HEIGHT - 80.0
    && ArchetypeValid(o.arch)
  }

  /** Where the spawner can put a powerup: between 100 and 500 high. */
  predicate PowerupValid(p: Powerup) {
    100.0 <= p.y < GAME_HEIGHT - 100.0
  }
}

=== FILE: events.dfy ===
/**
 The three randomised event machines that share the tick: the market mover
 (App.tsx:658-682), the boss call (App.tsx:305-328, 685-702) and the rare
 collectible (App.tsx:705-728). Each step reads the machine's state from the start
 of the tick; their triggers and countdowns are guarded so that at most one of the
 two runs on a tick.
 */
module Events {
  import opened Wrappers
  import opened Tables
  import opened Geometry
  import opened Spawning

  // ---------------------------------------------------------------- market mover

  /** How long a market mover stays on screen, in ticks, and its minimum spacing. */
  const MOVER_DURATION: int := 180
  const MOVER_COOLDOWN: int := 300

  /** The persona and the quote drawn for an active market mover. */
  datatype MoverPick = MoverPick(persona: int, quote: int)

  predicate PickValid(p: MoverPick) {
    0 <= p.persona < |MARKET_MOVERS| && 0 <= p.quote < |MARKET_MOVERS[p.persona].quotes|
  }

  function QuoteOf(p: MoverPick): Quote
    requires PickValid(p)
  {
    MARKET_MOVERS[p.persona].quotes[p.quote]
  }

  /** `activeMarketMover`, `marketMoverTimer`, `marketEffect` and `lastMarketMoverTime`. */
  datatype MoverState = MoverState(active: Option<MoverPick>, timer: int, effect: Option<MarketEffect>, lastFrame: int)

  /** At most one mover: the effect is present exactly while a mover is, and is its quote's effect. */
  predicate MoverValid(m: MoverState) {
    && (m.active.None? <==> m.effect.None?)
    && 0 <= m.timer <= MOVER_DURATION
    && (m.active.Some? ==>
          && PickValid(m.active.value)
          && m.effect == Some(QuoteOf(m.active.value).effect)
          && 1 <= m.timer)
  }

  /** A mover slot with nothing active, its cooldown counted from `lastFrame`. */
  function IdleMover(lastFrame: int): (m: MoverState)
    ensures MoverValid(m) && m.active.None? && m.effect.None? && m.lastFrame == lastFrame
  {
    MoverState(None, 0, None, lastFrame)
  }

  /** Whether the mover trigger fires on this tick. */
  predicate MoverFires(m: MoverState, score: int, frame: int, gate: real) {
    m.active.None? && score > 200 && frame - m.lastFrame > MOVER_COOLDOWN && gate < 0.01
  }

  /**
   One tick of the market mover. Idle, it starts when the score is above 200, more than
   300 frames have passed since the last one and the draw is under 1%: a persona and
   one of its quotes are drawn, the quote's effect applies for 180 ticks. Active, its
   timer counts down and the mover and its effect clear when it reaches zero.
   */
  function MoverStep(m: MoverState, score: int, frame: int, gate: real, personaDraw: real, quoteDraw: real)
    : (r: MoverState)
    requires 0.0 <= personaDraw < 1.0 && 0.0 <= quoteDraw < 1.0
    ensures MoverFires(m, score, frame, gate) ==>
      r.active.Some? && r.timer == MOVER_DURATION && r.lastFrame == frame && PickValid(r.active.value)
      && r.effect == Some(QuoteOf(r.active.value).effect)
    ensures MoverFires(m, score, frame, gate) ==> r.active == Some(DrawnPick(personaDraw, quoteDraw))
    ensures m.active.None? && !MoverFires(m, score, frame, gate) ==> r == m
    ensures m.active.Some? && m.timer > 0 ==>
      r.timer == m.timer - 1 && r.lastFrame == m.lastFrame
      && (r.active.None? <==> m.timer - 1 <= 0)
      && (r.active.Some? ==> r.active == m.active && r.effect == m.effect)
    ensures m.active.Some? && m.timer <= 0 ==> r == m
    ensures MoverValid(m) ==> MoverValid(r)
  {
    var w :=
      if MoverFires(m, score, frame, gate) then
        var pick := DrawnPick(personaDraw, quoteDraw);
        MoverState(Some(pick), MOVER_DURATION, Some(QuoteOf(pick).effect), frame)
      else m;
    if m.active.Some? && m.timer > 0 then
      var t := w.timer - 1;
      if t <= 0 then w.(active := None, effect := None, timer := t) else w.(timer := t)
    else w
  }

  /** The persona drawn from the catalogue, then one of that persona's quotes. */
  function DrawnPick(personaDraw: real, quoteDraw: real): (p: MoverPick)
    requires 0.0 <= personaDraw < 1.0 && 0.0 <= quoteDraw < 1.0
    ensures PickValid(p)
    ensures p.persona == PickIndex(personaDraw, |MARKET_MOVERS|)
    ensures p.quote == PickIndex(quoteDraw, |MARKET_MOVERS[p.persona].quotes|)
  {
    MarketMoverData(PickIndex(personaDraw, |MARKET_MOVERS|), 0);
    var persona := PickIndex(personaDraw, |MARKET_MOVERS|);
    MoverPick(persona, PickIndex(quoteDraw, |MARKET_MOVERS[persona].quotes|))
  }

  /** Every persona and every one of its quotes can be drawn when the trigger fires. */
  lemma EveryPickDrawn(m: MoverState, score: int, frame: int, gate: real, p: MoverPick)
    requires MoverFires(m, score, frame, gate) && PickValid(p)
    ensures exists pd, qd :: 0.0 <= pd < 1.0 && 0.0 <= qd < 1.0 && MoverStep(m, score, frame, gate, pd, qd).active == Some(p)
  {
    PickIndexOnto(p.persona, |MARKET_MOVERS|);
    PickIndexOnto(p.quote, |MARKET_MOVERS[p.persona].quotes|);
    var pd := p.persona as real / |MARKET_MOVERS| as real;
    var qd := p.quote as real / |MARKET_MOVERS[p.persona].quotes| as real;
    assert DrawnPick(pd, qd) == p;
    assert MoverStep(m, score, frame, gate, pd, qd).active == Some(p);
  }

  /** n ticks of an active mover's countdown, with no trigger able to fire meanwhile. */
  function MoverAfter(m: MoverState, n: nat, score: int, frame: int): MoverState
    decreases n
  {
    if n == 0 then m else MoverAfter(MoverStep(m, score, frame, 1.0, 0.0, 0.0), n - 1, score, frame + 1)
  }

  /**
   An active mover stays active, with the same quote and effect, for exactly as many
   ticks as its timer shows, then clears: a started mover lasts 180 ticks.
   */
  lemma {:induction false} MoverLastsItsTimer(m: MoverState, n: nat, score: int, frame: int)
    requires MoverValid(m) && m.active.Some?
    requires n <= m.timer
    ensures MoverValid(MoverAfter(m, n, score, frame))
    ensures MoverAfter(m, n, score, frame).timer == m.timer - n
    ensures MoverAfter(m, n, score, frame).active.Some? <==> n < m.timer
    ensures n < m.timer ==> MoverAfter(m, n, score, frame).effect == m.effect
    decreases n
  {
    if n > 0 {
      var m1 := MoverStep(m, score, frame, 1.0, 0.0, 0.0);
      if m.timer - 1 <= 0 {
        assert n == 1;
        assert MoverAfter(m1, 0, score, frame + 1) == m1;
      } else {
        MoverLastsItsTimer(m1, n - 1, score, frame + 1);
      }
    }
  }

  // ---------------------------------------------------------------- boss call

  const BOSS_TAP: real := 12.0
  const BOSS_DECAY: real := 0.5
  const BOSS_SECONDS: int := 5

  /** `bossCallActive`, `bossCallProgress` and `bossCallTimer`. */
  datatype BossCall = BossCall(active: bool, progress: real, timer: int)

  /** The progress meter is in [0, 100]; an active call has between 1 and 5 seconds left. */
  predicate BossValid(b: BossCall) {
    0.0 <= b.progress <= 100.0 && (b.active ==> 1 <= b.timer <= BOSS_SECONDS)
  }

  /**
   A tap on an active boss call: progress gains 12, clamped to 100; the call is
   survived, and deactivates, exactly when the tap brings progress to 100.
   */
  function BossTap(b: BossCall): (r: (BossCall, bool))
    ensures r.1 <==> b.progress + BOSS_TAP >= 100.0
    ensures r.0.progress == (if r.1 then 100.0 else b.progress + BOSS_TAP)
    ensures r.0.active == (b.active && !r.1)
    ensures r.0.timer == b.timer
    ensures BossValid(b) ==> BossValid(r.0)
  {
    var p := b.progress + BOSS_TAP;
    var success := p >= 100.0;
    (b.(active := if success then false else b.active, progress := if p < 100.0 then p else 100.0), success)
  }

  /** Whether the boss-call trigger fires on this tick. */
  predicate BossFires(b: BossCall, score: int, gate: real) {
    score >= 2000 && !b.active && gate < 0.0008
  }

  /**
   One tick of the boss call. Idle, it starts (5 seconds, progress 0) with score at least
   2000 and a draw under 0.08%. Active, the timer loses a second on every 60th frame
   and the call fails when it runs out; progress decays by 0.5 a tick, never below 0.
   The flag says whether the call failed on this tick.
   */
  function BossStep(b: BossCall, score: int, frame: int, gate: real): (r: (BossCall, bool))
    ensures BossFires(b, score, gate) ==> r == (BossCall(true, 0.0, BOSS_SECONDS), false)
    ensures !b.active && !BossFires(b, score, gate) ==> r == (b, false)
    ensures r.1 <==> b.active && frame % 60 == 0 && b.timer - 1 <= 0
    ensures b.active ==> r.0.progress == (if b.progress - BOSS_DECAY > 0.0 then b.progress - BOSS_DECAY else 0.0)
    ensures b.active ==> r.0.active == !r.1
    ensures b.active ==> r.0.timer == (if frame % 60 == 0 then b.timer - 1 else b.timer)
    ensures BossValid(b) ==> BossValid(r.0)
  {
    var w := if BossFires(b, score, gate) then BossCall(true, 0.0, BOSS_SECONDS) else b;
    var (w, failed) :=
      if b.active && frame % 60 == 0 then
        var t := w.timer - 1;
        if t <= 0 then (w.(active := false, timer := t), true) else (w.(timer := t), false)
      else (w, false);
    var w := if b.active then w.(progress := if 0.0 > w.progress - BOSS_DECAY then 0.0 else w.progress - BOSS_DECAY) else w;
    (w, failed)
  }

  /** n taps in a row on a boss call, stopping at the one that survives it. */
  function TapTimes(b: BossCall, n: nat): BossCall
    decreases n
  {
    if n == 0 || !b.active then b else TapTimes(BossTap(b).0, n - 1)
  }

  /** From a fresh call, taps add 12 each: eight taps leave it at 96 and still ringing. */
  lemma {:induction false} TapsAccumulate(n: nat)
    requires n <= 8
    ensures TapTimes(BossCall(true, 0.0, BOSS_SECONDS), n) == BossCall(true, 12.0 * n as real, BOSS_SECONDS)
    decreases n
  {
    if n > 0 {
      TapsAccumulate(n - 1);
      TapsAccumulateStep(n - 1);
    }
  }

  /** Tapping once more after k taps, for k below 8. */
  lemma TapsAccumulateStep(k: nat)
    requires k < 8
    ensures TapTimes(BossCall(true, 0.0, BOSS_SECONDS), k + 1)
         == TapTimes(TapTimes(BossCall(true, 0.0, BOSS_SECONDS), k), 1)
  {
    TapTimesSplit(BossCall(true, 0.0, BOSS_SECONDS), k, 1);
  }

  /** Tapping n then m times is tapping n + m times. */
  lemma {:induction false} TapTimesSplit(b: BossCall, n: nat, m: nat)
    ensures TapTimes(b, n + m) == TapTimes(TapTimes(b, n), m)
    decreases n
  {
    if n > 0 && b.active {
      TapTimesSplit(BossTap(b).0, n - 1, m);
    }
  }

  /** With no decay in between, the ninth tap survives the call: 96 + 12 >= 100. */
  lemma NineTapsSurvive()
    ensures !TapTimes(BossCall(true, 0.0, BOSS_SECONDS), 9).active
    ensures TapTimes(BossCall(true, 0.0, BOSS_SECONDS), 9).progress == 100.0
  {
    TapsAccumulate(8);
    TapTimesSplit(BossCall(true, 0.0, BOSS_SECONDS), 8, 1);
  }

  // ---------------------------------------------------------------- rare collectible

  /** `buffettActive`, `buffettX` and the one-shot `buffettCollected` latch. */
  datatype Rare = Rare(active: bool, x: real, collected: bool)

  /** Whether the rare collectible appears on this tick. */
  predicate RareFires(r: Rare, score: int, gate: real) {
    score >= 3000 && !r.active && !r.collected && gate < 0.002
  }

  /**
   One tick of the rare collectible, with the player's height at tick start. Idle and
   never collected, it appears at x = 900 on a draw under 0.2% once the score is 3000.
   Active, it sweeps left by 2 and vanishes uncollected past x = -100; within 60 of the
   player it is collected, for good. The flag says whether it was collected on this tick.
   */
  function RareStep(r: Rare, score: int, playerY: real, gate: real): (res: (Rare, bool))
    ensures r.collected ==> res == (r, false)
    ensures RareFires(r, score, gate) ==> res == (Rare(true, GAME_WIDTH + 100.0, false), false)
    ensures !r.active && !r.collected && !RareFires(r, score, gate) ==> res == (r, false)
    ensures res.0.collected <==> r.collected || res.1
    ensures res.1 <==> r.active && !r.collected && TouchesRare(playerY, r.x)
    ensures r.active && !r.collected ==> res.0.x == r.x - 2.0
    ensures r.active && !r.collected && r.x - 2.0 < -100.0 ==> !res.0.active && !res.0.collected
    ensures r.active && !r.collected && r.x - 2.0 >= -100.0 ==> res.0.active
  {
    var w := if RareFires(r, score, gate) then r.(active := true, x := GAME_WIDTH + 100.0) else r;
    if r.active && !r.collected then
      var x' := w.x - 2.0;
      var w := w.(x := x', active := if x' < -100.0 then false else w.active);
      if TouchesRare(playerY, r.x) then (w.(collected := true), true) else (w, false)
    else (w, false)
  }

  /** Once collected, the collectible never changes again, whatever the score or the draws. */
  lemma {:induction false} CollectedStaysCollected(r: Rare, scores: seq<int>, ys: seq<real>, gates: seq<real>)
    requires r.collected
    requires |scores| == |ys| == |gates|
    ensures RareRun(r, scores, ys, gates) == r
    decreases |scores|
  {
    if |scores| > 0 {
      CollectedStaysCollected(RareStep(r, scores[0], ys[0], gates[0]).0, scores[1..], ys[1..], gates[1..]);
    }
  }

  /** The collectible after a run of ticks with the given scores, heights and draws. */
  function RareRun(r: Rare, scores: seq<int>, ys: seq<real>, gates: seq<real>): Rare
    requires |scores| == |ys| == |gates|
    decreases |scores|
  {
    if |scores| == 0 then r
    else RareRun(RareStep(r, scores[0], ys[0], gates[0]).0, scores[1..], ys[1..], gates[1..])
  }
}

=== FILE: game.dfy ===
/**
 The whole game state and the 60 Hz tick (App.tsx:357-729), with the input handlers
 `jump` (App.tsx:304-350) and `cashout` (App.tsx:208-223) and the reset of
 `initGame` (App.tsx:151-199).

 A tick reads two versions of the state. The guards of the source's loop read the
 values captured when the loop was scheduled (the closure): here the argument `s`.
 The writes go through state setters that apply in the order they are issued, each
 functional updater seeing the result of the earlier ones: here a working copy `w`
 threaded through the phases in source order. A game over raised mid-tick does not
 stop the rest of the tick.
 */
module Game {
  import opened Wrappers
  import opened Tables
  import opened Entities
  import opened Geometry
  import opened Economy
  import opened Physics
  import opened Spawning
  import opened Events
  import opened Leaderboard

  datatype Phase = Menu | Playing | GameOver

  datatype State = State(
    phase: Phase,
    cashoutMode: bool,
    player: Player,
    ledger: Ledger,
    spawner: Spawner,
    obstacles: seq<Obstacle>,
    powerups: seq<Powerup>,
    mover: MoverState,
    boss: BossCall,
    rare: Rare)

  /** The `Math.random()` values one tick consumes, each in [0, 1). */
  datatype Draws = Draws(
    chaos: real,
    obstacleType: real,
    gapY: real,
    whaleDir: real,
    powerupGate: real,
    powerupType: real,
    powerupY: real,
    moverGate: real,
    moverPersona: real,
    moverQuote: real,
    bossGate: real,
    rareGate: real)

  predicate Unit(r: real) { 0.0 <= r < 1.0 }

  predicate DrawsValid(d: Draws) {
    && Unit(d.chaos) && Unit(d.obstacleType) && Unit(d.gapY) && Unit(d.whaleDir)
    && Unit(d.powerupGate) && Unit(d.powerupType) && Unit(d.powerupY)
    && Unit(d.moverGate) && Unit(d.moverPersona) && Unit(d.moverQuote)
    && Unit(d.bossGate) && Unit(d.rareGate)
  }

  /**
   What the tick keeps under either reading of the life count: a valid ledger, the token
   between the ceiling and the floor, spawner, obstacles, powerups and events within
   their ranges, and a game still in play is solvent.
   */
  predicate Sound(g: State) {
    && LedgerValid(g.ledger)
    && 0.0 <= g.player.y <= FLOOR_Y
    && SpawnerValid(g.spawner)
    && (forall i :: 0 <= i < |g.obstacles| ==> ObstacleValid(g.obstacles[i]))
    && (forall i :: 0 <= i < |g.powerups| ==> PowerupValid(g.powerups[i]))
    && MoverValid(g.mover)
    && BossValid(g.boss)
    && (g.phase == Playing ==> g.ledger.capital > MIN_CAPITAL)
  }

  /** The game invariant: sound, and no negative life count. */
  predicate Valid(g: State) {
    Sound(g) && g.player.extraLives >= 0
  }

  /**
   What any part of a tick keeps between two working states: score and the loss count
   never drop, the cash-out flag is untouched, and the phase only changes to game
   over, and only on a losing trade.
   */
  predicate Progresses(w: State, r: State) {
    && r.ledger.score >= w.ledger.score
    && r.ledger.lossTrades >= w.ledger.lossTrades
    && r.cashoutMode == w.cashoutMode
    && (r.phase != w.phase ==> r.phase == GameOver && r.ledger.lossTrades > w.ledger.lossTrades)
  }

  // ---------------------------------------------------------------- reset

  /**
   `initGame`: a fresh ledger, the token at mid-height at rest, no obstacles, powerups
   or events, a fresh spawner. The high score and the banked extra lives are not reset.
   */
  function InitGame(s: State): (r: State)
    ensures r.ledger == FreshLedger(s.ledger.highScore)
    ensures r.player.extraLives == s.player.extraLives
    ensures r.player.y == GAME_HEIGHT / 2.0 && r.player.vy == 0.0
    ensures !r.player.invincible && !r.player.speedBoost && !r.player.doublePoints && !r.player.frozen
    ensures r.obstacles == [] && r.powerups == [] && !r.cashoutMode
    ensures r.mover == IdleMover(0) && r.boss == BossCall(false, 0.0, 0) && r.rare == Rare(false, GAME_WIDTH, false)
    ensures r.spawner == FreshSpawner()
    ensures r.phase == s.phase
    ensures s.ledger.highScore >= 0 && s.player.extraLives >= 0 && s.phase != Playing ==> Valid(r)
  {
    State(
      s.phase,
      false,
      Player(GAME_HEIGHT / 2.0, 0.0, false, false, false, false, s.player.extraLives),
      FreshLedger(s.ledger.highScore),
      FreshSpawner(),
      [],
      [],
      IdleMover(0),
      BossCall(false, 0.0, 0),
      Rare(false, GAME_WIDTH, false))
  }

  /** `startGame`: reset and play. */
  function StartGame(s: State): (r: State)
    ensures r.phase == Playing
    ensures r == InitGame(s).(phase := Playing)
    ensures s.ledger.highScore >= 0 && s.player.extraLives >= 0 ==> Valid(r)
  {
    InitGame(s).(phase := Playing)
  }

  /** The state the page opens in: the menu, with nothing banked. */
  function Opening(): (g: State)
    ensures Valid(g) && g.phase == Menu && g.player.extraLives == 0
    ensures g.ledger == FreshLedger(0) && g.spawner == FreshSpawner()
  {
    State(
      Menu, false,
      Player(300.0, 0.0, false, false, false, false, 0),
      Ledger(10000000, 0, 0, 0, 2, 0, 0, 0, 0, 0),
      Spawner(0, 0, 0, 180.0), [], [],
      MoverState(None, 0, None, 0),
      BossCall(false, 0.0, 0),
      Rare(false, 800.0, false))
  }

  // ---------------------------------------------------------------- physics

  /**
   Gravity and the floor: the token moves as `Fall` says; a penalised floor touch debits
   300000 and may bankrupt the game.
   */
  function PhysicsPhase(s: State, w: State): (r: State)
    requires w.player == s.player
    ensures r.player == Fall(s.player).0
    ensures Fall(s.player).1 == Penalised ==> r.ledger == Debit(w.ledger, FLOOR_PENALTY, s.ledger.score).0
    ensures Fall(s.player).1 == Penalised ==>
      r.phase == (if Debit(w.ledger, FLOOR_PENALTY, s.ledger.score).1 then GameOver else w.phase)
    ensures Fall(s.player).1 != Penalised ==> r.ledger == w.ledger && r.phase == w.phase
    ensures r.spawner == w.spawner && r.obstacles == w.obstacles && r.powerups == w.powerups
    ensures r.mover == w.mover && r.boss == w.boss && r.rare == w.rare
    ensures Valid(s) ==> Progresses(w, r)
    ensures Valid(s) && Valid(w) ==> Valid(r)
  {
    var (p, landing) := Fall(s.player);
    if landing == Penalised then
      var (l, bankrupt) := Debit(w.ledger, FLOOR_PENALTY, s.ledger.score);
      w.(player := p, ledger := l, phase := if bankrupt then GameOver else w.phase)
    else
      w.(player := p)
  }

  // ---------------------------------------------------------------- spawning

  /** The obstacle spawner, deciding on the score at tick start; a new column is appended at the right edge. */
  function SpawnColumn(s: State, w: State, d: Draws): (r: State)
    requires DrawsValid(d)
    ensures |w.obstacles| <= |r.obstacles| <= |w.obstacles| + 1 && r.obstacles[..|w.obstacles|] == w.obstacles
    ensures |r.obstacles| > |w.obstacles| ==> r.obstacles[|w.obstacles|].x == GAME_WIDTH
    ensures s.ledger.score < 500 && |r.obstacles| > |w.obstacles| ==> r.obstacles[|w.obstacles|].arch.Kind() != Margin
    ensures r == w.(spawner := r.spawner, obstacles := r.obstacles)
    ensures (r.spawner, if |r.obstacles| > |w.obstacles| then Some(r.obstacles[|w.obstacles|]) else None)
         == SpawnObstacleStep(w.spawner, s.ledger.score, d.obstacleType, d.gapY, d.whaleDir)
    ensures r.spawner.frame == w.spawner.frame
    ensures s.ledger.score >= 0 && Valid(w) ==> Valid(r)
  {
    var (sp, newObstacle) := SpawnObstacleStep(w.spawner, s.ledger.score, d.obstacleType, d.gapY, d.whaleDir);
    var obstacles := if newObstacle.Some? then w.obstacles + [newObstacle.value] else w.obstacles;
    assert obstacles[..|w.obstacles|] == w.obstacles;
    assert s.ledger.score >= 0 && Valid(w) ==> forall i :: 0 <= i < |obstacles| ==> ObstacleValid(obstacles[i]) by {
      if s.ledger.score >= 0 && Valid(w) && newObstacle.Some? {
        assert ObstacleValid(newObstacle.value);
      }
    }
    w.(spawner := sp, obstacles := obstacles)
  }

  /** The powerup spawner; a new powerup is appended at the right edge. */
  function SpawnBonus(w: State, d: Draws): (r: State)
    requires DrawsValid(d)
    ensures |w.powerups| <= |r.powerups| <= |w.powerups| + 1 && r.powerups[..|w.powerups|] == w.powerups
    ensures r == w.(spawner := r.spawner, powerups := r.powerups)
    ensures (r.spawner, if |r.powerups| > |w.powerups| then Some(r.powerups[|w.powerups|]) else None)
         == SpawnPowerupStep(w.spawner, d.powerupGate, d.powerupType, d.powerupY)
    ensures r.spawner.frame == w.spawner.frame
    ensures Valid(w) ==> Valid(r)
  {
    var (sp, newPowerup) := SpawnPowerupStep(w.spawner, d.powerupGate, d.powerupType, d.powerupY);
    var powerups := if newPowerup.Some? then w.powerups + [newPowerup.value] else w.powerups;
    assert powerups[..|w.powerups|] == w.powerups;
    w.(spawner := sp, powerups := powerups)
  }

  /** Both spawners in source order, obstacle first; new items are appended. */
  function SpawnPhase(s: State, w: State, d: Draws): (r: State)
    requires DrawsValid(d)
    ensures |w.obstacles| <= |r.obstacles| <= |w.obstacles| + 1 && r.obstacles[..|w.obstacles|] == w.obstacles
    ensures |w.powerups| <= |r.powerups| <= |w.powerups| + 1 && r.powerups[..|w.powerups|] == w.powerups
    ensures r == w.(spawner := r.spawner, obstacles := r.obstacles, powerups := r.powerups)
    ensures var (sp, col) := SpawnObstacleStep(w.spawner, s.ledger.score, d.obstacleType, d.gapY, d.whaleDir);
      && r.obstacles == w.obstacles + (if col.Some? then [col.value] else [])
      && var (sp', bonus) := SpawnPowerupStep(sp, d.powerupGate, d.powerupType, d.powerupY);
      && r.powerups == w.powerups + (if bonus.Some? then [bonus.value] else [])
      && r.spawner == sp'
    ensures r.spawner.frame == w.spawner.frame
    ensures Valid(s) && Valid(w) ==> Valid(r)
  {
    var w1 := SpawnColumn(s, w, d);
    var r := SpawnBonus(w1, d);
    assert |w1.obstacles| > |w.obstacles| ==> w1.obstacles == w.obstacles + [w1.obstacles[|w.obstacles|]];
    assert |r.powerups| > |w1.powerups| ==> r.powerups == w1.powerups + [r.powerups[|w1.powerups|]];
    r
  }

  // ---------------------------------------------------------------- obstacles

  /** Whether a column newly crosses the pass line (its right edge left of x = 80) on this move. */
  predicate Crosses(o: Obstacle, speed: real) {
    !o.passed && o.x - speed + OBSTACLE_WIDTH < 80.0
  }

  /** A column's own update on a tick: scroll and animate, and latch `passed` when it crosses the line. */
  function MoveColumn(o: Obstacle, speed: real): (r: Obstacle)
    ensures r.x == o.x - speed && r.gapY == o.gapY && r.dynamicGap == o.dynamicGap
    ensures r.passed <==> o.passed || r.x + OBSTACLE_WIDTH < 80.0
    ensures r.arch == Animate(o.arch)
    ensures ObstacleValid(o) ==> ObstacleValid(r)
  {
    Scroll(o, speed).(passed := o.passed || Crosses(o, speed))
  }

  /** How many times a column is credited over a run of ticks with the given speeds. */
  function CreditsOver(o: Obstacle, speeds: seq<real>): nat
    decreases |speeds|
  {
    if |speeds| == 0 then 0
    else (if Crosses(o, speeds[0]) then 1 else 0) + CreditsOver(MoveColumn(o, speeds[0]), speeds[1..])
  }

  /** The pass latch: over any run of ticks a column is credited at most once, and never once latched. */
  lemma {:induction false} CreditedAtMostOnce(o: Obstacle, speeds: seq<real>)
    ensures CreditsOver(o, speeds) <= 1
    ensures o.passed ==> CreditsOver(o, speeds) == 0
    decreases |speeds|
  {
    if |speeds| > 0 {
      var o' := MoveColumn(o, speeds[0]);
      CreditedAtMostOnce(o', speeds[1..]);
      assert Crosses(o, speeds[0]) ==> o'.passed;
    }
  }

  /** The ice zone freezes a token inside its gap, in the zone around x = 80, unless already frozen. */
  predicate Freezes(o: Obstacle, py: real, frozen: bool) {
    && o.arch.IceZone? && !o.passed && !frozen
    && o.x < 130.0 && o.x + OBSTACLE_WIDTH > 30.0
    && py + 10.0 > o.gapY && py + PLAYER_SIZE - 10.0 < o.gapY + GapOf(o)
  }

  /**
   The extra-life count the obstacle-hit branch reads: as written, the count at tick
   start; corrected, the running count, which a floor touch or an earlier hit in the
   same tick may already have spent.
   */
  function LivesSeen(s: State, w: State, staleLives: bool): int {
    if staleLives then s.player.extraLives else w.player.extraLives
  }

  /**
   A collision with a column: a life seen banked is spent, with invincibility; otherwise
   the archetype's penalty, computed on the capital at tick start, is debited, which
   ends the game if it bankrupts it.
   */
  function ObstacleHit(s: State, w: State, k: ObstacleKind, staleLives: bool): (r: State)
    ensures r.player.invincible
    ensures LivesSeen(s, w, staleLives) > 0 ==>
      r.player.extraLives == w.player.extraLives - 1 && r.ledger == w.ledger && r.phase == w.phase
    ensures LivesSeen(s, w, staleLives) <= 0 ==>
      r.player.extraLives == w.player.extraLives
      && r.ledger == Debit(w.ledger, Penalty(k, s.ledger.capital), s.ledger.score).0
    ensures r.phase == GameOver <==>
      w.phase == GameOver || (LivesSeen(s, w, staleLives) <= 0 && w.ledger.capital - Penalty(k, s.ledger.capital) <= MIN_CAPITAL)
    ensures r.ledger.winTrades == w.ledger.winTrades
    ensures r.player == w.player.(invincible := true, extraLives := r.player.extraLives)
    ensures r == w.(player := r.player, ledger := r.ledger, phase := r.phase)
    ensures Valid(s) ==> Progresses(w, r)
    ensures Valid(s) && Sound(w) ==> Sound(r)
  {
    if LivesSeen(s, w, staleLives) > 0 then
      w.(player := w.player.(extraLives := w.player.extraLives - 1, invincible := true))
    else
      var (l, bankrupt) := Debit(w.ledger, Penalty(k, s.ledger.capital), s.ledger.score);
      w.(ledger := l, phase := if bankrupt then GameOver else w.phase, player := w.player.(invincible := true))
  }

  /**
   The pass credit of a column on its move: booked at the combo and double-points status
   seen at tick start, exactly when the column newly crosses the pass line.
   */
  function PassStep(s: State, w: State, o: Obstacle, speed: real): (r: State)
    ensures Crosses(o, speed) ==> r.ledger == PassCredit(w.ledger, o.arch.Kind(), s.ledger.combo, s.player.doublePoints)
    ensures !Crosses(o, speed) ==> r == w
    ensures r == w.(ledger := r.ledger)
    ensures Valid(s) ==> Progresses(w, r)
    ensures Valid(s) && Valid(w) ==> Valid(r)
  {
    var o1 := Scroll(o, speed);
    if !o1.passed && o1.x + OBSTACLE_WIDTH < 80.0 then
      w.(ledger := PassCredit(w.ledger, o1.arch.Kind(), s.ledger.combo, s.player.doublePoints))
    else w
  }

  /** Whether a column, after its move, hits the token: checked at the tick-start height unless invincible then. */
  predicate Collides(s: State, o: Obstacle) {
    !s.player.invincible && CheckCollision(80.0, s.player.y, o)
  }

  /** The ice zone's effect on the working state: the token is frozen when the moved column freezes it. */
  function FreezeStep(s: State, w: State, o: Obstacle): State {
    if Freezes(o, s.player.y, s.player.frozen) then w.(player := w.player.(frozen := true)) else w
  }

  /**
   One column's turn in the obstacle map: it scrolls and animates, is credited once when
   it crosses the pass line, may freeze the token, and on a collision a banked life is
   spent or the penalty booked as a losing trade; without a collision no life or loss
   changes hands.
   */
  function ResolveOne(s: State, w: State, o: Obstacle, speed: real, staleLives: bool): (r: (Obstacle, State))
    ensures r.0 == MoveColumn(o, speed)
    ensures r.1.ledger.winTrades == w.ledger.winTrades + (if Crosses(o, speed) then 1 else 0)
    ensures Crosses(o, speed) ==> r.1.ledger.totalTrades > w.ledger.totalTrades
    ensures ObstacleValid(o) ==> ObstacleValid(r.0)
    ensures r.1.player.frozen == (w.player.frozen || Freezes(r.0, s.player.y, s.player.frozen))
    ensures Collides(s, r.0) ==>
      r.1 == ObstacleHit(s, FreezeStep(s, PassStep(s, w, o, speed), r.0), r.0.arch.Kind(), staleLives)
    ensures !Collides(s, r.0) ==> r.1 == FreezeStep(s, PassStep(s, w, o, speed), r.0)
    ensures r.1.ledger.lossTrades == w.ledger.lossTrades + (if Collides(s, r.0) && LivesSeen(s, w, staleLives) <= 0 then 1 else 0)
    ensures r.1.player.extraLives == w.player.extraLives - (if Collides(s, r.0) && LivesSeen(s, w, staleLives) > 0 then 1 else 0)
    ensures r.1 == w.(player := r.1.player, ledger := r.1.ledger, phase := r.1.phase)
    ensures r.1.player.y == w.player.y && r.1.player.vy == w.player.vy
    ensures Valid(s) ==> Progresses(w, r.1)
    ensures Valid(s) && Sound(w) ==> Sound(r.1)
  {
    var o2 := MoveColumn(o, speed);
    var w1 := PassStep(s, w, o, speed);
    var w2 := FreezeStep(s, w1, o2);
    var w3 := if Collides(s, o2) then ObstacleHit(s, w2, o2.arch.Kind(), staleLives) else w2;
    (o2, w3)
  }

  /** How many of the columns newly cross the pass line on a move by `speed`. */
  function CrossingCount(obs: seq<Obstacle>, speed: real): (n: nat)
    ensures n <= |obs|
  {
    if |obs| == 0 then 0 else (if Crosses(obs[0], speed) then 1 else 0) + CrossingCount(obs[1..], speed)
  }

  /** The `map` half of the obstacle update: every column moved by `speed`. */
  function Moved(obs: seq<Obstacle>, speed: real): (r: seq<Obstacle>)
    ensures |r| == |obs|
    ensures forall i :: 0 <= i < |obs| ==> r[i] == MoveColumn(obs[i], speed)
  {
    if |obs| == 0 then [] else [MoveColumn(obs[0], speed)] + Moved(obs[1..], speed)
  }

  /** The `filter` half: the columns whose left edge is still right of −60, in order. */
  function OnScreen(obs: seq<Obstacle>): (r: seq<Obstacle>)
    ensures |r| <= |obs|
    ensures forall i :: 0 <= i < |r| ==> r[i].x > -OBSTACLE_WIDTH
    ensures forall i :: 0 <= i < |r| ==> r[i] in obs
  {
    if |obs| == 0 then []
    else
      var rest := OnScreen(obs[1..]);
      assert forall i :: 0 <= i < |rest| ==> rest[i] in obs by {
        forall i | 0 <= i < |rest| ensures rest[i] in obs {
          var j :| 0 <= j < |obs[1..]| && obs[1..][j] == rest[i];
          assert obs[j + 1] == rest[i];
        }
      }
      (if obs[0].x > -OBSTACLE_WIDTH then [obs[0]] else []) + rest
  }

  /** How many of the columns, once moved, hit the token. */
  function HitCount(s: State, obs: seq<Obstacle>, speed: real): (n: nat)
    ensures n <= |obs|
  {
    if |obs| == 0 then 0
    else (if Collides(s, MoveColumn(obs[0], speed)) then 1 else 0) + HitCount(s, obs[1..], speed)
  }

  /**
   The obstacle map and filter, one column after another: the kept columns are the moved
   ones still on screen, in order; every column crossing the pass line is credited
   exactly once; and every colliding column either spends a life or books a loss.
   */
  function ResolveAll(s: State, w: State, obs: seq<Obstacle>, speed: real, staleLives: bool)
    : (r: (seq<Obstacle>, State))
    ensures r.0 == OnScreen(Moved(obs, speed))
    ensures r.1.ledger.winTrades == w.ledger.winTrades + CrossingCount(obs, speed)
    ensures r.1.ledger.lossTrades - w.ledger.lossTrades + (w.player.extraLives - r.1.player.extraLives)
         == HitCount(s, obs, speed)
    ensures r.1.ledger.lossTrades >= w.ledger.lossTrades && r.1.player.extraLives <= w.player.extraLives
    ensures !staleLives && w.player.extraLives >= 0 ==> r.1.player.extraLives >= 0
    ensures r.1 == w.(player := r.1.player, ledger := r.1.ledger, phase := r.1.phase)
    ensures r.1.player.y == w.player.y && r.1.player.vy == w.player.vy
    ensures Valid(s) ==> Progresses(w, r.1)
    ensures Valid(s) && Sound(w) ==> Sound(r.1)
    decreases |obs|
  {
    if |obs| == 0 then ([], w)
    else
      var (o, w1) := ResolveOne(s, w, obs[0], speed, staleLives);
      var (rest, w2) := ResolveAll(s, w1, obs[1..], speed, staleLives);
      var moved := Moved(obs, speed);
      assert moved[0] == o && moved[1..] == Moved(obs[1..], speed);
      ((if o.x > -OBSTACLE_WIDTH then [o] else []) + rest, w2)
  }

  /** Moving keeps every column where the spawner could put it. */
  lemma MovedValid(obs: seq<Obstacle>, speed: real)
    ensures (forall i :: 0 <= i < |obs| ==> ObstacleValid(obs[i])) ==>
      forall i :: 0 <= i < |OnScreen(Moved(obs, speed))| ==> ObstacleValid(OnScreen(Moved(obs, speed))[i])
  {
    var m := Moved(obs, speed);
    if forall i :: 0 <= i < |obs| ==> ObstacleValid(obs[i]) {
      assert forall i :: 0 <= i < |m| ==> ObstacleValid(m[i]);
    }
  }

  /**
   The obstacle phase: the map and filter over the columns present after spawning; the
   columns kept are the moved ones still on screen.
   */
  function ObstaclePhase(s: State, w: State, speed: real, staleLives: bool): (r: State)
    ensures r.obstacles == OnScreen(Moved(w.obstacles, speed))
    ensures r.ledger.winTrades == w.ledger.winTrades + CrossingCount(w.obstacles, speed)
    ensures r.ledger.lossTrades - w.ledger.lossTrades + (w.player.extraLives - r.player.extraLives)
         == HitCount(s, w.obstacles, speed)
    ensures r.player.extraLives <= w.player.extraLives
    ensures !staleLives && w.player.extraLives >= 0 ==> r.player.extraLives >= 0
    ensures r.spawner == w.spawner && r.powerups == w.powerups && r.mover == w.mover
    ensures r.boss == w.boss && r.rare == w.rare
    ensures r.player.y == w.player.y
    ensures Valid(s) ==> Progresses(w, r)
    ensures Valid(s) && Sound(w) ==> Sound(r)
  {
    var (kept, w') := ResolveAll(s, w.(obstacles := []), w.obstacles, speed, staleLives);
    MovedValid(w.obstacles, speed);
    w'.(obstacles := kept)
  }

  /**
   Extra lives take precedence over losses: reading the running count, the map spends
   banked lives on the first hits and books a losing trade for each hit after they run
   out.
   */
  lemma {:induction false} LivesAbsorbHits(s: State, w: State, obs: seq<Obstacle>, speed: real)
    requires w.player.extraLives >= 0
    ensures var r := ResolveAll(s, w, obs, speed, false).1;
      && r.player.extraLives == Max(0, w.player.extraLives - HitCount(s, obs, speed))
      && r.ledger.lossTrades == w.ledger.lossTrades + Max(0, HitCount(s, obs, speed) - w.player.extraLives)
    decreases |obs|
  {
    if |obs| > 0 {
      var (_, w1) := ResolveOne(s, w, obs[0], speed, false);
      LivesAbsorbHits(s, w1, obs[1..], speed);
    }
  }

  /**
   As written, the map reads the life count from tick start: with a life banked then,
   every hit spends one, however many are left, and none is booked as a loss.
   */
  lemma {:induction false} StaleLivesAbsorbAll(s: State, w: State, obs: seq<Obstacle>, speed: real)
    requires s.player.extraLives > 0
    ensures var r := ResolveAll(s, w, obs, speed, true).1;
      && r.player.extraLives == w.player.extraLives - HitCount(s, obs, speed)
      && r.ledger.lossTrades == w.ledger.lossTrades
    decreases |obs|
  {
    if |obs| > 0 {
      var (_, w1) := ResolveOne(s, w, obs[0], speed, true);
      StaleLivesAbsorbAll(s, w1, obs[1..], speed);
    }
  }

  /** With no life banked at tick start or now, both readings of the life count agree for one column. */
  lemma ResolveOneIgnoresStaleness(s: State, w: State, o: Obstacle, speed: real)
    requires s.player.extraLives == 0 && w.player.extraLives == 0
    ensures ResolveOne(s, w, o, speed, true) == ResolveOne(s, w, o, speed, false)
  {
  }

  /** With no life banked at tick start or now, both readings of the life count agree for the whole map. */
  lemma {:induction false} ResolveAllIgnoresStaleness(s: State, w: State, obs: seq<Obstacle>, speed: real)
    requires s.player.extraLives == 0 && w.player.extraLives == 0
    ensures ResolveAll(s, w, obs, speed, true) == ResolveAll(s, w, obs, speed, false)
    decreases |obs|
  {
    if |obs| > 0 {
      var (o, w1) := ResolveOne(s, w, obs[0], speed, false);
      ResolveOneIgnoresStaleness(s, w, obs[0], speed);
      assert w1.player.extraLives == 0 by {
        assert w1.player.extraLives <= 0;
        assert !(LivesSeen(s, w, false) > 0);
      }
      ResolveAllIgnoresStaleness(s, w1, obs[1..], speed);
    }
  }

  // ---------------------------------------------------------------- powerups

  /**
   `applyPowerup`: the bonus is credited to capital and profit, and exactly the powerup's
   own effect switches on: coffee the speed boost, shield invincibility, rocket an
   upward kick of 20 and 200 score, diamond double points.
   */
  function ApplyPowerup(w: State, k: PowerupKind): (r: State)
    ensures r.ledger == PowerupCredit(w.ledger, k)
    ensures r.player.speedBoost == (w.player.speedBoost || k == Coffee)
    ensures r.player.invincible == (w.player.invincible || k == Shield)
    ensures r.player.doublePoints == (w.player.doublePoints || k == Diamond)
    ensures r.player.vy == (if k == Rocket then -20.0 else w.player.vy)
    ensures r.player.y == w.player.y && r.player.frozen == w.player.frozen
    ensures r.player.extraLives == w.player.extraLives
    ensures r == w.(player := r.player, ledger := r.ledger)
  {
    var w1 := w.(ledger := PowerupCredit(w.ledger, k));
    match k
    case Coffee => w1.(player := w1.player.(speedBoost := true))
    case Shield => w1.(player := w1.player.(invincible := true))
    case Rocket => w1.(player := w1.player.(vy := -20.0))
    case Diamond => w1.(player := w1.player.(doublePoints := true))
  }

  /** The total bonus of the powerups the token at height `py` touches. */
  function TouchedBonus(py: real, ps: seq<Powerup>): (b: int)
    ensures b >= 0
  {
    if |ps| == 0 then 0
    else
      BonusTableCovers(ps[0].kind);
      (if TouchesPowerup(py, ps[0]) then POWERUP_BONUSES[ps[0].kind.Key()] else 0) + TouchedBonus(py, ps[1..])
  }

  /** The kinds of the powerups within reach of the token at height `py`, in order: those a pass applies. */
  function Touched(py: real, ps: seq<Powerup>): (t: seq<PowerupKind>)
    ensures |t| <= |ps|
    ensures forall k :: k in t <==> exists i :: 0 <= i < |ps| && ps[i].kind == k && TouchesPowerup(py, ps[i])
  {
    if |ps| == 0 then []
    else
      var rest := Touched(py, ps[1..]);
      assert forall i :: 0 < i < |ps| ==> ps[i] == ps[1..][i - 1];
      (if TouchesPowerup(py, ps[0]) then [ps[0].kind] else []) + rest
  }

  /** The token after the collected kinds: each switches its own flag on, a rocket sets the kick. */
  function Boosted(p: Player, t: seq<PowerupKind>): Player {
    p.(speedBoost := p.speedBoost || Coffee in t,
       invincible := p.invincible || Shield in t,
       doublePoints := p.doublePoints || Diamond in t,
       vy := if Rocket in t then -20.0 else p.vy)
  }

  /** The `filter` half of the powerup update: those out of the token's reach and still right of −40, in order. */
  function Uncollected(py: real, ps: seq<Powerup>): (r: seq<Powerup>)
    ensures |r| <= |ps|
    ensures forall i :: 0 <= i < |r| ==> r[i] in ps && !TouchesPowerup(py, r[i]) && r[i].x > -40.0
  {
    if |ps| == 0 then []
    else
      var rest := Uncollected(py, ps[1..]);
      assert forall i :: 0 <= i < |rest| ==> rest[i] in ps by {
        forall i | 0 <= i < |rest| ensures rest[i] in ps {
          var j :| 0 <= j < |ps[1..]| && ps[1..][j] == rest[i];
          assert ps[j + 1] == rest[i];
        }
      }
      (if !TouchesPowerup(py, ps[0]) && ps[0].x > -40.0 then [ps[0]] else []) + rest
  }

  /** The `map` half: every powerup moved left by `speed`. */
  function Shift(ps: seq<Powerup>, speed: real): (r: seq<Powerup>)
    ensures |r| == |ps|
    ensures forall i :: 0 <= i < |ps| ==> r[i] == ps[i].(x := ps[i].x - speed)
  {
    if |ps| == 0 then [] else [ps[0].(x := ps[0].x - speed)] + Shift(ps[1..], speed)
  }

  /** Moving a concatenation moves each part. */
  lemma ShiftAppend(a: seq<Powerup>, b: seq<Powerup>, speed: real)
    ensures Shift(a + b, speed) == Shift(a, speed) + Shift(b, speed)
  {
    var l, r := Shift(a + b, speed), Shift(a, speed) + Shift(b, speed);
    forall i | 0 <= i < |l|
      ensures l[i] == r[i]
    {
      if i < |a| {
        assert (a + b)[i] == a[i];
      } else {
        assert (a + b)[i] == b[i - |a|];
      }
    }
  }

  /**
   The powerup filter and move: each powerup within reach of the token's tick-start
   height is applied and dropped; the rest still on screen are kept, in order, and moved
   by `speed`. Capital and profit both gain exactly the bonuses of the collected ones.
   */
  function CollectAll(s: State, w: State, ps: seq<Powerup>, speed: real): (r: (seq<Powerup>, State))
    ensures r.0 == Shift(Uncollected(s.player.y, ps), speed)
    ensures r.1.ledger.capital == w.ledger.capital + TouchedBonus(s.player.y, ps)
    ensures r.1.ledger.profit == w.ledger.profit + TouchedBonus(s.player.y, ps)
    ensures r.1.ledger == w.ledger.(capital := r.1.ledger.capital, profit := r.1.ledger.profit,
      score := w.ledger.score + 200 * multiset(Touched(s.player.y, ps))[Rocket])
    ensures r.1.player == Boosted(w.player, Touched(s.player.y, ps))
    ensures r.1 == w.(player := r.1.player, ledger := r.1.ledger)
    ensures r.1.player.y == w.player.y && r.1.player.extraLives == w.player.extraLives
    ensures LedgerValid(w.ledger) ==> LedgerValid(r.1.ledger)
    decreases |ps|
  {
    if |ps| == 0 then ([], w)
    else
      var p := ps[0];
      var (rest, w') :=
        if TouchesPowerup(s.player.y, p) then CollectAll(s, ApplyPowerup(w, p.kind), ps[1..], speed)
        else CollectAll(s, w, ps[1..], speed);
      BonusTableCovers(p.kind);
      var kept := if !TouchesPowerup(s.player.y, p) && p.x > -40.0 then [p] else [];
      ShiftAppend(kept, Uncollected(s.player.y, ps[1..]), speed);
      (Shift(kept, speed) + rest, w')
  }

  /** Moving keeps every powerup at a height the spawner could give it. */
  lemma ShiftedValid(py: real, ps: seq<Powerup>, speed: real)
    ensures (forall i :: 0 <= i < |ps| ==> PowerupValid(ps[i])) ==>
      forall i :: 0 <= i < |Shift(Uncollected(py, ps), speed)| ==> PowerupValid(Shift(Uncollected(py, ps), speed)[i])
  {
  }

  /** The powerup phase: the filter and move over the powerups present after the obstacle phase. */
  function PowerupPhase(s: State, w: State, speed: real): (r: State)
    ensures r.powerups == Shift(Uncollected(s.player.y, w.powerups), speed)
    ensures r.ledger.capital == w.ledger.capital + TouchedBonus(s.player.y, w.powerups)
    ensures r.ledger.profit == w.ledger.profit + TouchedBonus(s.player.y, w.powerups)
    ensures r.ledger == w.ledger.(capital := r.ledger.capital, profit := r.ledger.profit,
      score := w.ledger.score + 200 * multiset(Touched(s.player.y, w.powerups))[Rocket])
    ensures r.player == Boosted(w.player, Touched(s.player.y, w.powerups))
    ensures r.spawner == w.spawner && r.obstacles == w.obstacles && r.mover == w.mover
    ensures r.boss == w.boss && r.rare == w.rare && r.phase == w.phase
    ensures r.player.y == w.player.y && r.player.extraLives == w.player.extraLives
    ensures Progresses(w, r)
    ensures Sound(w) ==> Sound(r)
  {
    var (kept, w') := CollectAll(s, w.(powerups := []), w.powerups, speed);
    ShiftedValid(s.player.y, w.powerups, speed);
    w'.(powerups := kept)
  }

  // ---------------------------------------------------------------- passive score and events

  /** Every 30th frame the score gains 10 (20 doubled) times the tick-start combo. */
  function ScorePhase(s: State, w: State): (r: State)
    ensures w.spawner.frame % 30 != 0 ==> r == w
    ensures w.spawner.frame % 30 == 0 ==>
      (r.ledger.score - w.ledger.score) as real == (if s.player.doublePoints then 20.0 else 10.0) * ComboValue(s.ledger.combo)
    ensures r == w.(ledger := w.ledger.(score := r.ledger.score))
    ensures Valid(s) ==> Progresses(w, r)
    ensures Valid(s) && Sound(w) ==> Sound(r)
  {
    if w.spawner.frame % 30 == 0 then
      var (score, _) := PassiveScore(w.ledger.score, s.ledger.combo, s.player.doublePoints);
      w.(ledger := w.ledger.(score := score))
    else w
  }

  /**
   The market mover, the boss call (whose failure keeps 70% of the profit) and the rare
   collectible (a banked life and 1000 score), all deciding on the tick-start state.
   */
  function EventPhase(s: State, w: State, d: Draws): (r: State)
    requires DrawsValid(d)
    ensures r.mover == MoverStep(s.mover, s.ledger.score, w.spawner.frame, d.moverGate, d.moverPersona, d.moverQuote)
    ensures r.boss == BossStep(s.boss, s.ledger.score, w.spawner.frame, d.bossGate).0
    ensures r.rare == RareStep(s.rare, s.ledger.score, s.player.y, d.rareGate).0
    ensures s.rare.collected ==> r.rare == s.rare && r.player == w.player
    ensures r.player.extraLives == w.player.extraLives + (if RareStep(s.rare, s.ledger.score, s.player.y, d.rareGate).1 then 1 else 0)
    ensures r.ledger.score == w.ledger.score + (if RareStep(s.rare, s.ledger.score, s.player.y, d.rareGate).1 then 1000 else 0)
    ensures r.ledger == w.ledger.(
      profit := if BossStep(s.boss, s.ledger.score, w.spawner.frame, d.bossGate).1 then BossFailProfit(w.ledger.profit) else w.ledger.profit,
      score := r.ledger.score)
    ensures r.spawner == w.spawner && r.obstacles == w.obstacles && r.powerups == w.powerups && r.phase == w.phase
    ensures r.player == w.player.(extraLives := r.player.extraLives)
    ensures Progresses(w, r)
    ensures Valid(s) && Sound(w) ==> Sound(r)
  {
    var mover := MoverStep(s.mover, s.ledger.score, w.spawner.frame, d.moverGate, d.moverPersona, d.moverQuote);
    var (boss, failed) := BossStep(s.boss, s.ledger.score, w.spawner.frame, d.bossGate);
    var w1 := if failed then w.(ledger := w.ledger.(profit := BossFailProfit(w.ledger.profit))) else w;
    var (rare, collected) := RareStep(s.rare, s.ledger.score, s.player.y, d.rareGate);
    var w2 :=
      if collected then
        w1.(player := w1.player.(extraLives := w1.player.extraLives + 1), ledger := w1.ledger.(score := w1.ledger.score + 1000))
      else w1;
    w2.(mover := mover, boss := boss, rare := rare)
  }

  // ---------------------------------------------------------------- the tick

  /** The scroll speed of the tick, from the flags and market effect at tick start. */
  function TickSpeed(s: State, d: Draws): (v: real)
    requires DrawsValid(d)
    ensures v == Speed(s.player.speedBoost, s.player.frozen, s.mover.effect, d.chaos)
    ensures v > 0.0
  {
    Speed(s.player.speedBoost, s.player.frozen, s.mover.effect, d.chaos)
  }

  /** The start of the loop body: the frame count advances, then gravity and the floor, then both spawners. */
  function Prelude(s: State, d: Draws): (r: State)
    requires DrawsValid(d)
    ensures r.spawner.frame == s.spawner.frame + 1
    ensures r.player == Fall(s.player).0
    ensures Fall(s.player).1 != Penalised ==> r.ledger == s.ledger
    ensures |s.obstacles| <= |r.obstacles| && r.obstacles[..|s.obstacles|] == s.obstacles
    ensures r.rare == s.rare
    ensures Valid(s) ==> Valid(r) && Progresses(s, r)
  {
    var w0 := s.(spawner := s.spawner.(frame := s.spawner.frame + 1));
    SpawnPhase(s, PhysicsPhase(s, w0), d)
  }

  /**
   A column spawns on a tick exactly when one is due: past the grace period, with more
   frames since the last column than the decayed interval. It is appended at the right
   edge with the gap size the tick-start score calls for.
   */
  lemma PreludeSpawnsWhenDue(s: State, d: Draws)
    requires DrawsValid(d)
    ensures var f := s.spawner.frame + 1;
      var due := f > GRACE_PERIOD && (f - s.spawner.lastObstacle) as real > DecayInterval(s.spawner.interval);
      && |Prelude(s, d).obstacles| == |s.obstacles| + (if due then 1 else 0)
      && (due ==>
        var o := Prelude(s, d).obstacles[|s.obstacles|];
        o.x == GAME_WIDTH && o.dynamicGap == GapSizeFor(s.ledger.score) && !o.passed
        && o.gapY == PlaceGap(GapSizeFor(s.ledger.score), d.gapY))
  {
    var w0 := s.(spawner := s.spawner.(frame := s.spawner.frame + 1));
    var w1 := PhysicsPhase(s, w0);
    assert w1.spawner == w0.spawner && w1.obstacles == s.obstacles;
  }

  /** The end of the loop body: powerups, the passive score, then the three event machines. */
  function Finish(s: State, w: State, d: Draws, speed: real): (r: State)
    requires DrawsValid(d)
    ensures r.spawner.frame == w.spawner.frame
    ensures r.player.extraLives == w.player.extraLives + (if RareStep(s.rare, s.ledger.score, s.player.y, d.rareGate).1 then 1 else 0)
    ensures r.ledger.lossTrades == w.ledger.lossTrades
    ensures r.rare == RareStep(s.rare, s.ledger.score, s.player.y, d.rareGate).0
    ensures s.rare.collected ==> r.rare == s.rare
    ensures Valid(s) ==> Progresses(w, r)
    ensures Valid(s) && Sound(w) ==> Sound(r)
  {
    EventPhase(s, ScorePhase(s, PowerupPhase(s, w, speed)), d)
  }

  /** The loop body of a game in play, phase after phase; `staleLives` picks the life reading of the hit branch. */
  function Advance(s: State, d: Draws, staleLives: bool): (r: State)
    requires DrawsValid(d)
    ensures r.spawner.frame == s.spawner.frame + 1
    ensures r.rare == RareStep(s.rare, s.ledger.score, s.player.y, d.rareGate).0
    ensures s.rare.collected ==> r.rare == s.rare
    ensures Valid(s) ==> Progresses(s, r)
    ensures Valid(s) ==> Sound(r)
    ensures !staleLives && Valid(s) ==> Valid(r)
  {
    var speed := TickSpeed(s, d);
    Finish(s, ObstaclePhase(s, Prelude(s, d), speed, staleLives), d, speed)
  }

  /**
   One tick of the game loop, with the hit branch reading the running life count. The
   loop only runs while a game is in play, and a frame passes on every tick of it.
   */
  function Tick(s: State, d: Draws): (r: State)
    requires DrawsValid(d)
    ensures s.phase != Playing ==> r == s
    ensures s.phase == Playing ==> r.spawner.frame == s.spawner.frame + 1
  {
    if s.phase != Playing then s else Advance(s, d, false)
  }

  /** The tick keeps the game invariant: in particular capital, the combo range and the life count stay in range. */
  lemma TickPreservesValid(s: State, d: Draws)
    requires DrawsValid(d) && Valid(s)
    ensures Valid(Tick(s, d))
  {
  }

  /**
   The tick never lowers the score or the loss count, and a game in play ends only on a
   losing trade booked during the tick.
   */
  lemma TickProgresses(s: State, d: Draws)
    requires DrawsValid(d) && Valid(s)
    ensures Progresses(s, Tick(s, d))
    ensures s.phase == Playing && Tick(s, d).phase == GameOver ==> Tick(s, d).ledger.lossTrades > s.ledger.lossTrades
  {
  }

  /**
   A tick in play collects the rare item, not collected before, exactly when it is on
   screen and within reach of the token's tick-start height.
   */
  lemma TickCollectsRare(s: State, d: Draws)
    requires DrawsValid(d) && s.phase == Playing && !s.rare.collected
    ensures Tick(s, d).rare.collected <==> s.rare.active && TouchesRare(s.player.y, s.rare.x)
  {
  }

  /** Once collected, the rare collectible is left alone by every later tick. */
  lemma TickKeepsCollected(s: State, d: Draws)
    requires DrawsValid(d) && s.rare.collected
    ensures Tick(s, d).rare == s.rare
  {
  }

  /** The tick as the source writes it: the hit branch reads the life count from tick start. */
  function TickAsWritten(s: State, d: Draws): (r: State)
    requires DrawsValid(d)
    ensures s.phase != Playing ==> r == s
    ensures s.phase == Playing ==> r.spawner.frame == s.spawner.frame + 1
    ensures Valid(s) ==> Progresses(s, r)
    ensures Valid(s) ==> Sound(r) && LedgerValid(r.ledger)
  {
    if s.phase != Playing then s else Advance(s, d, true)
  }

  /** With no life banked at tick start the two readings agree: the defect needs a banked life. */
  lemma AsWrittenAgreesWithoutLives(s: State, d: Draws)
    requires DrawsValid(d)
    requires s.player.extraLives == 0
    ensures TickAsWritten(s, d) == Tick(s, d)
  {
    if s.phase == Playing {
      var w := Prelude(s, d);
      ResolveAllIgnoresStaleness(s, w.(obstacles := []), w.obstacles, TickSpeed(s, d));
    }
  }

  /** A state a tick can run on: one banked life, falling onto the floor beside a column's lower slab. */
  function LifeAndColumn(): (g: State)
    ensures Valid(g) && g.phase == Playing && g.player.extraLives == 1
  {
    State(
      Playing, false,
      Player(545.0, 10.0, false, false, false, false, 1),
      Ledger(10000000, 0, 0, 0, 2, 0, 0, 0, 0, 0),
      Spawner(0, 0, 0, 180.0),
      [Obstacle(100.0, 100.0, 200.0, FudNews, false)],
      [],
      MoverState(None, 0, None, 0),
      BossCall(false, 0.0, 0),
      Rare(false, 800.0, false))
  }

  /** The state is set for the double spend: one banked life, a floor touch this tick, and a collision with the first column. */
  predicate DoubleSpendSetup(s: State, d: Draws)
    requires DrawsValid(d)
  {
    && s.phase == Playing
    && s.player.extraLives == 1 && !s.player.invincible
    && s.player.y + s.player.vy > FLOOR_Y
    && |s.obstacles| > 0 && CheckCollision(80.0, s.player.y, Scroll(s.obstacles[0], TickSpeed(s, d)))
    && !s.rare.active
  }

  /**
   As written, the tick spends the one banked life twice when the token touches the floor
   and hits a column in the same tick: the count ends below zero.
   */
  lemma LivesGoNegativeAsWritten(s: State, d: Draws)
    requires DrawsValid(d) && Valid(s)
    requires DoubleSpendSetup(s, d)
    ensures TickAsWritten(s, d).player.extraLives < 0
  {
    var speed := TickSpeed(s, d);
    var w := Prelude(s, d);
    assert Fall(s.player).1 == LifeSpent;
    assert w.obstacles[0] == s.obstacles[0] by {
      assert w.obstacles[..|s.obstacles|] == s.obstacles;
    }
    var start := w.(obstacles := []);
    var (_, wt) := ResolveOne(s, start, w.obstacles[0], speed, true);
    assert wt.player.extraLives == -1;
    assert ResolveAll(s, start, w.obstacles, speed, true).1 == ResolveAll(s, wt, w.obstacles[1..], speed, true).1;
  }

  /**
   Corrected, the same tick spends the life on the floor, leaves the count at zero, and
   books the hit as a losing trade.
   */
  lemma DoubleSpendCorrected(s: State, d: Draws)
    requires DrawsValid(d) && Valid(s)
    requires DoubleSpendSetup(s, d)
    ensures Tick(s, d).player.extraLives == 0
    ensures Tick(s, d).ledger.lossTrades > s.ledger.lossTrades
  {
    var speed := TickSpeed(s, d);
    var w := Prelude(s, d);
    assert Fall(s.player).1 == LifeSpent;
    assert w.obstacles[0] == s.obstacles[0] by {
      assert w.obstacles[..|s.obstacles|] == s.obstacles;
    }
    var start := w.(obstacles := []);
    var (_, wf) := ResolveOne(s, start, w.obstacles[0], speed, false);
    assert wf.ledger.lossTrades == s.ledger.lossTrades + 1;
    assert ResolveAll(s, start, w.obstacles, speed, false).1 == ResolveAll(s, wf, w.obstacles[1..], speed, false).1;
    TickPreservesValid(s, d);
  }

  const EVEN_DRAWS: Draws := Draws(0.5, 0.5, 0.5, 0.5, 0.5, 0.5, 0.5, 0.5, 0.5, 0.5, 0.5, 0.5)

  /**
   The set-up is reachable from a valid state: one banked life, the token at 545 falling
   at 10, and a FUD column at x = 100 with its gap from 100 to 300.
   */
  lemma DoubleSpendHasWitness()
    ensures DrawsValid(EVEN_DRAWS) && Valid(LifeAndColumn())
    ensures DoubleSpendSetup(LifeAndColumn(), EVEN_DRAWS)
  {
    var s := LifeAndColumn();
    assert TickSpeed(s, EVEN_DRAWS) == GAME_SPEED;
    assert Scroll(s.obstacles[0], GAME_SPEED).x == 96.5;
  }

  // ---------------------------------------------------------------- input

  /**
   `jump`. During a boss call a press is a tap: progress gains 12, and the tap that
   reaches 100 survives the call and scores 500; the token does not jump. Otherwise a
   game in play gets an upward velocity of 11, and the menu starts a game.
   */
  function Jump(s: State): (r: State)
    ensures s.boss.active ==> r == s.(boss := r.boss, ledger := s.ledger.(score := r.ledger.score))
    ensures s.boss.active ==> r.boss == BossTap(s.boss).0
    ensures s.boss.active ==>
      r.ledger.score == s.ledger.score + (if s.boss.progress + BOSS_TAP >= 100.0 then 500 else 0)
    ensures !s.boss.active && s.phase == Playing ==> r == s.(player := s.player.(vy := JUMP_FORCE))
    ensures !s.boss.active && s.phase == Menu ==> r == StartGame(s)
    ensures !s.boss.active && s.phase == GameOver ==> r == s
    ensures Valid(s) ==> Valid(r)
  {
    if s.boss.active then
      var (b, survived) := BossTap(s.boss);
      s.(boss := b, ledger := if survived then s.ledger.(score := s.ledger.score + 500) else s.ledger)
    else if s.phase == Playing then
      s.(player := s.player.(vy := JUMP_FORCE))
    else if s.phase == Menu then
      StartGame(s)
    else
      s
  }

  /** The survival bonus is paid once: after the winning tap, the next press is an ordinary jump. */
  lemma BossBonusOnce(s: State)
    requires s.boss.active && s.boss.progress + BOSS_TAP >= 100.0
    ensures !Jump(s).boss.active
    ensures Jump(Jump(s)).ledger.score == Jump(s).ledger.score || Jump(s).phase == Menu
  {
  }

  /**
   `cashout`: the game ends by the player's choice with the ledger as it stands, the high
   score is raised to the score if it beats it, and the name prompt is offered when the
   score would rank on the table.
   */
  function Cashout(s: State, board: seq<Entry>): (r: (State, bool))
    ensures r.0.phase == GameOver && r.0.cashoutMode
    ensures r.0.ledger == s.ledger.(highScore := Max(s.ledger.highScore, s.ledger.score))
    ensures r.0 == s.(phase := GameOver, cashoutMode := true, ledger := r.0.ledger)
    ensures r.1 == DeservesPrompt(board, s.ledger.score)
    ensures Valid(s) ==> Valid(r.0)
  {
    var l := if s.ledger.score > s.ledger.highScore then s.ledger.(highScore := s.ledger.score) else s.ledger;
    (s.(cashoutMode := true, phase := GameOver, ledger := l), DeservesPrompt(board, s.ledger.score))
  }

  /** A cash-out that offers the name prompt leads to a table on which the game's score is ranked. */
  lemma CashoutPromptRanks(s: State, board: seq<Entry>, typed: string, today: string)
    requires BoardValid(board)
    requires Cashout(s, board).1
    ensures Entry(EntryName(typed), s.ledger.score, today) in InsertLeaderboard(board, typed, Cashout(s, board).0.ledger.score, today)
  {
    PromptedScoreIsRanked(board, typed, s.ledger.score, today);
  }
}

=== FILE: geometry.dfy ===
/**
 Collision and proximity tests (App.tsx:225-253, 618-620, 720-722) and the
 composition of the per-tick scroll speed (App.tsx:359-365).
 */
module Geometry {
  import opened Wrappers
  import opened Tables
  import opened Entities

  /** An axis-aligned rectangle given by its top-left corner and size. */
  datatype Box = Box(x: real, y: real, width: real, height: real)

  /** Strict overlap: rectangles that only share an edge do not collide. */
  predicate Overlaps(a: Box, b: Box) {
    a.x < b.x + b.width && a.x + a.width > b.x && a.y < b.y + b.height && a.y + a.height > b.y
  }

  /**
   `checkCollision`: the player sprite at (px, py), inset by 5 on the left and top and
   35 wide and tall, against the obstacle's slab above the gap and the slab below it.
   */
  function CheckCollision(px: real, py: real, o: Obstacle): (hit: bool)
    ensures hit <==>
      && o.x < px + 40.0 && px + 5.0 < o.x + OBSTACLE_WIDTH
      && ((py + 5.0 < o.gapY && py + 40.0 > 0.0)
          || (py + 5.0 < GAME_HEIGHT && py + 40.0 > o.gapY + GapOf(o)))
  {
    var gapSize := GapOf(o);
    var playerBox := Box(px + 5.0, py + 5.0, PLAYER_SIZE - 15.0, PLAYER_SIZE - 15.0);
    var topBox := Box(o.x, 0.0, OBSTACLE_WIDTH, o.gapY);
    var bottomBox := Box(o.x, o.gapY + gapSize, OBSTACLE_WIDTH, GAME_HEIGHT - o.gapY - gapSize);
    Overlaps(playerBox, topBox) || Overlaps(playerBox, bottomBox)
  }

  /** A hitbox that lies vertically inside the gap never collides, wherever the column is. */
  lemma InGapNeverHits(px: real, py: real, o: Obstacle)
    requires o.gapY <= py + 5.0 && py + 40.0 <= o.gapY + GapOf(o)
    ensures !CheckCollision(px, py, o)
  {
  }

  /** A hitbox horizontally clear of the column never collides, whatever the heights. */
  lemma DisjointColumnNeverHits(px: real, py: real, o: Obstacle)
    requires px + 40.0 <= o.x || o.x + OBSTACLE_WIDTH <= px + 5.0
    ensures !CheckCollision(px, py, o)
  {
  }

  /** A column that has crossed the pass line (x + 60 < 80) is left of the hitbox at 85: it cannot hit. */
  lemma PassedColumnCannotHit(py: real, o: Obstacle)
    requires o.x + OBSTACLE_WIDTH < 80.0
    ensures !CheckCollision(80.0, py, o)
  {
    DisjointColumnNeverHits(80.0, py, o);
  }

  /** `Math.sqrt(dx * dx + dy * dy) < radius`, stated without the root for a positive radius. */
  function Within(dx: real, dy: real, radius: real): (near: bool)
    requires radius > 0.0
    ensures near <==> dx * dx + dy * dy < radius * radius
    ensures near ==> -radius < dx < radius && -radius < dy < radius
  {
    var d2 := dx * dx + dy * dy;
    if d2 < radius * radius then
      SquareBelow(dx, radius, dy);
      SquareBelow(dy, radius, dx);
      true
    else
      false
  }

  /**
   The squared test is the root test: for the non-negative root `dist` of dx² + dy²,
   `dist < radius` holds exactly when the points are within `radius`.
   */
  lemma {:induction false} WithinIsRootTest(dx: real, dy: real, radius: real, dist: real)
    requires radius > 0.0 && dist >= 0.0 && dist * dist == dx * dx + dy * dy
    ensures Within(dx, dy, radius) <==> dist < radius
  {
    if dist < radius {
      ProductBelow(dist, dist, radius, radius);
    } else {
      SquareGrows(dist, radius);
    }
  }

  /** Multiplying non-negative numbers below their bounds stays below the product of the bounds. */
  lemma ProductBelow(a: real, b: real, x: real, y: real)
    requires 0.0 <= a < x && 0.0 <= b < y
    ensures a * b < x * y
  {
    assert a * b <= a * y;
    assert a * y < x * y;
  }

  /** If dx² + dy² < r² then |dx| < r. */
  lemma SquareBelow(dx: real, r: real, dy: real)
    requires r > 0.0 && dx * dx + dy * dy < r * r
    ensures -r < dx < r
  {
    assert dy * dy >= 0.0;
    SquareGrows(dx, r);
  }

  /** Squaring is monotone away from zero: |a| >= r > 0 gives a² >= r². */
  lemma SquareGrows(a: real, r: real)
    requires r > 0.0
    ensures a >= r || a <= -r ==> a * a >= r * r
  {
    if a >= r {
      assert a * a >= r * a >= r * r;
    } else if a <= -r {
      assert a * a == (-a) * (-a) >= r * (-a) >= r * r;
    }
  }

  /** A powerup is picked up when its anchor is within 40 of the player's centre (player at x = 80). */
  function TouchesPowerup(py: real, p: Powerup): (near: bool)
    ensures var dx, dy := 80.0 + PLAYER_SIZE / 2.0 - p.x, py + PLAYER_SIZE / 2.0 - p.y;
      near <==> dx * dx + dy * dy < 1600.0
    ensures near ==> 65.0 < p.x < 145.0 && py - 15.0 < p.y < py + 65.0
  {
    Within(80.0 + PLAYER_SIZE / 2.0 - p.x, py + PLAYER_SIZE / 2.0 - p.y, 40.0)
  }

  /** The rare collectible, flying at height 80, is collected within 60 of the player's centre. */
  function TouchesRare(py: real, rareX: real): (near: bool)
    ensures var dx, dy := 80.0 + PLAYER_SIZE / 2.0 - rareX, py + PLAYER_SIZE / 2.0 - 80.0;
      near <==> dx * dx + dy * dy < 3600.0
    ensures near ==> 45.0 < rareX < 165.0 && -5.0 < py < 115.0
  {
    Within(80.0 + PLAYER_SIZE / 2.0 - rareX, py + PLAYER_SIZE / 2.0 - 80.0, 60.0)
  }

  function BoostFactor(boost: bool): real { if boost then 1.5 else 1.0 }
  function FrozenFactor(frozen: bool): real { if frozen then 0.4 else 1.0 }
  function EffectFactor(effect: Option<MarketEffect>, chaos: real): real {
    match effect
    case None => 1.0
    case Some(Pump) => 0.85
    case Some(Dump) => 1.2
    case Some(Chaos) => 0.8 + chaos * 0.5
  }

  /**
   The scroll speed of one tick: the base speed, boosted, then frozen, then scaled by the
   active market effect; `chaos` is the tick's fresh draw for the chaos multiplier.
   */
  function Speed(boost: bool, frozen: bool, effect: Option<MarketEffect>, chaos: real): (v: real)
    requires 0.0 <= chaos < 1.0
    ensures 1.12 <= v < 6.825
  {
    var speed := if boost then GAME_SPEED * 1.5 else GAME_SPEED;
    var speed := if frozen then speed * 0.4 else speed;
    match effect
    case Some(Pump) => speed * 0.85
    case Some(Dump) => speed * 1.2
    case Some(Chaos) => speed * (0.8 + chaos * 0.5)
    case None => speed
  }

  /** The modifiers compose by plain multiplication, each independently of the others. */
  lemma SpeedComposes(boost: bool, frozen: bool, effect: Option<MarketEffect>, chaos: real)
    requires 0.0 <= chaos < 1.0
    ensures Speed(boost, frozen, effect, chaos)
         == GAME_SPEED * BoostFactor(boost) * FrozenFactor(frozen) * EffectFactor(effect, chaos)
  {
  }
}

=== FILE: leaderboard.dfy ===
/**
 The in-memory top-10 table and the insertion done when a name is submitted
 (App.tsx:757-785): the typed name is trimmed, an empty one becomes "Anonymous",
 the entry is appended, the list is sorted by score descending (a stable sort, so
 among equal scores the older entry stays first) and cut to ten.
 */
module Leaderboard {

  /** A table row; the decorative character marker is left out. */
  datatype Entry = Entry(name: string, score: int, date: string)

  const CAPACITY: int := 10

  /** The table a session starts with (App.tsx:107-111). */
  const INITIAL_BOARD: seq<Entry> := [
    Entry("Warren B.", 88888, "2024-01-15"),
    Entry("Diamond", 50000, "2024-01-14"),
    Entry("HODLER", 35000, "2024-01-13")
  ]

  predicate SortedDesc(s: seq<Entry>) {
    forall i, j :: 0 <= i < j < |s| ==> s[i].score >= s[j].score
  }

  /** What every insertion keeps: sorted by score, highest first, and at most ten rows. */
  predicate BoardValid(b: seq<Entry>) {
    SortedDesc(b) && |b| <= CAPACITY
  }

  lemma InitialBoardValid()
    ensures BoardValid(INITIAL_BOARD)
  {
  }

  /** Places `e` after the leading run of entries scoring at least as much: one stable insertion step. */
  function InsertDesc(s: seq<Entry>, e: Entry): (r: seq<Entry>)
    ensures |r| == |s| + 1
    ensures multiset(r) == multiset(s) + multiset{e}
  {
    if |s| == 0 then [e]
    else if s[0].score >= e.score then
      assert s == [s[0]] + s[1..];
      [s[0]] + InsertDesc(s[1..], e)
    else
      [e] + s
  }

  /** Insertion adds no row scoring above a bound that the table and the entry respect. */
  lemma InsertDescBounded(s: seq<Entry>, e: Entry, b: int)
    requires forall i :: 0 <= i < |s| ==> s[i].score <= b
    requires e.score <= b
    ensures forall i :: 0 <= i < |InsertDesc(s, e)| ==> InsertDesc(s, e)[i].score <= b
  {
    var r := InsertDesc(s, e);
    forall i | 0 <= i < |r|
      ensures r[i].score <= b
    {
      assert r[i] in multiset(r);
      assert r[i] in multiset(s) || r[i] == e;
    }
  }

  /** Insertion keeps a sorted table sorted. */
  lemma {:induction false} InsertDescSorted(s: seq<Entry>, e: Entry)
    requires SortedDesc(s)
    ensures SortedDesc(InsertDesc(s, e))
  {
    if |s| > 0 && s[0].score >= e.score {
      var t := s[1..];
      InsertDescSorted(t, e);
      InsertDescBounded(t, e, s[0].score);
      assert InsertDesc(s, e) == [s[0]] + InsertDesc(t, e);
    }
  }

  /** Where `InsertDesc` puts the new entry: past every leading entry that scores at least as much. */
  function InsertIndex(s: seq<Entry>, e: Entry): (k: nat)
    ensures k <= |s|
    ensures forall i :: 0 <= i < k ==> s[i].score >= e.score
    ensures k < |s| ==> s[k].score < e.score
  {
    if |s| == 0 then 0
    else if s[0].score >= e.score then 1 + InsertIndex(s[1..], e)
    else 0
  }

  /** The new entry sits at its insert index. */
  lemma {:induction false} InsertDescAt(s: seq<Entry>, e: Entry)
    ensures InsertDesc(s, e)[InsertIndex(s, e)] == e
  {
    if |s| > 0 && s[0].score >= e.score {
      InsertDescAt(s[1..], e);
      assert InsertDesc(s, e) == [s[0]] + InsertDesc(s[1..], e);
    }
  }

  /** The rows ahead of the insert index keep their places. */
  lemma {:induction false} InsertDescBefore(s: seq<Entry>, e: Entry, i: int)
    requires 0 <= i < InsertIndex(s, e)
    ensures InsertDesc(s, e)[i] == s[i]
  {
    if i > 0 {
      InsertDescBefore(s[1..], e, i - 1);
      assert InsertDesc(s, e) == [s[0]] + InsertDesc(s[1..], e);
    }
  }

  /** The rows from the insert index on move down one place. */
  lemma {:induction false} InsertDescAfter(s: seq<Entry>, e: Entry, i: int)
    requires InsertIndex(s, e) < i <= |s|
    ensures InsertDesc(s, e)[i] == s[i - 1]
  {
    if s[0].score >= e.score {
      InsertDescAfter(s[1..], e, i - 1);
      assert InsertDesc(s, e) == [s[0]] + InsertDesc(s[1..], e);
    }
  }

  /** The new entry sits at its insert index, with the old rows before and after it in their old order. */
  lemma InsertDescShape(s: seq<Entry>, e: Entry)
    ensures InsertDesc(s, e)[InsertIndex(s, e)] == e
    ensures forall i :: 0 <= i < InsertIndex(s, e) ==> InsertDesc(s, e)[i] == s[i]
    ensures forall i :: InsertIndex(s, e) < i <= |s| ==> InsertDesc(s, e)[i] == s[i - 1]
  {
    InsertDescAt(s, e);
    forall i | 0 <= i < InsertIndex(s, e) {
      InsertDescBefore(s, e, i);
    }
    forall i | InsertIndex(s, e) < i <= |s| {
      InsertDescAfter(s, e, i);
    }
  }

  /** A stable insertion sort by score, highest first. */
  function SortDesc(s: seq<Entry>): (r: seq<Entry>)
    ensures |r| == |s|
    ensures multiset(r) == multiset(s)
    ensures SortedDesc(r)
  {
    if |s| == 0 then []
    else
      assert s == s[..|s| - 1] + [s[|s| - 1]];
      var init := SortDesc(s[..|s| - 1]);
      InsertDescSorted(init, s[|s| - 1]);
      InsertDesc(init, s[|s| - 1])
  }

  /** Inserting an entry no higher than any row appends it. */
  lemma {:induction false} InsertDescLowest(s: seq<Entry>, e: Entry)
    requires forall i :: 0 <= i < |s| ==> s[i].score >= e.score
    ensures InsertDesc(s, e) == s + [e]
  {
    if |s| > 0 {
      InsertDescLowest(s[1..], e);
      assert s == [s[0]] + s[1..];
    }
  }

  /** Sorting an already sorted table changes nothing. */
  lemma {:induction false} SortDescOfSorted(s: seq<Entry>)
    requires SortedDesc(s)
    ensures SortDesc(s) == s
  {
    if |s| > 0 {
      var init := s[..|s| - 1];
      SortDescOfSorted(init);
      InsertDescLowest(init, s[|s| - 1]);
      assert init + [s[|s| - 1]] == s;
    }
  }

  /** The first n rows. */
  function Take(s: seq<Entry>, n: int): (r: seq<Entry>)
    requires n >= 0
    ensures |r| == if |s| < n then |s| else n
    ensures r == s[..|r|]
  {
    if |s| < n then s else s[..n]
  }

  /** The characters the source language's `trim` removes: white space and line terminators. */
  predicate IsSpace(c: char) {
    || c == ' ' || c == '\t' || c == '\n' || c == '\r' || c == '\U{000B}' || c == '\U{000C}'
    || c == '\U{00A0}' || c == '\U{1680}' || ('\U{2000}' <= c <= '\U{200A}')
    || c == '\U{2028}' || c == '\U{2029}' || c == '\U{202F}' || c == '\U{205F}'
    || c == '\U{3000}' || c == '\U{FEFF}'
  }

  /** Drops leading white space: the result is a suffix with only white space cut away. */
  function TrimStart(s: string): (r: string)
    ensures |r| <= |s| && r == s[|s| - |r|..]
    ensures forall k :: 0 <= k < |s| - |r| ==> IsSpace(s[k])
    ensures |r| > 0 ==> !IsSpace(r[0])
  {
    if |s| > 0 && IsSpace(s[0]) then TrimStart(s[1..]) else s
  }

  /** Drops trailing white space: the result is a prefix with only white space cut away. */
  function TrimEnd(s: string): (r: string)
    ensures |r| <= |s| && r == s[..|r|]
    ensures forall k :: |r| <= k < |s| ==> IsSpace(s[k])
    ensures |r| > 0 ==> !IsSpace(r[|r| - 1])
  {
    if |s| > 0 && IsSpace(s[|s| - 1]) then TrimEnd(s[..|s| - 1]) else s
  }

  /** A name made of white space followed by a white-space suffix is all white space. */
  lemma SpaceThenSpace(s: string, a: string)
    requires |a| <= |s| && a == s[|s| - |a|..]
    requires forall k :: 0 <= k < |s| - |a| ==> IsSpace(s[k])
    requires forall k :: 0 <= k < |a| ==> IsSpace(a[k])
    ensures forall k :: 0 <= k < |s| ==> IsSpace(s[k])
  {
    forall k | |s| - |a| <= k < |s|
      ensures IsSpace(s[k])
    {
      assert s[k] == a[k - (|s| - |a|)];
    }
  }

  /** Trimming the end leaves nothing only of a name that is all white space. */
  lemma {:induction false} TrimEndEmpty(a: string)
    requires TrimEnd(a) == []
    ensures forall k :: 0 <= k < |a| ==> IsSpace(a[k])
  {
    if |a| > 0 {
      var b := a[..|a| - 1];
      assert IsSpace(a[|a| - 1]);
      TrimEndEmpty(b);
      forall k | 0 <= k < |a|
        ensures IsSpace(a[k])
      {
        if k < |b| {
          assert a[k] == b[k];
        }
      }
    }
  }

  /** Every character of a slice of a slice of `s` is a character of `s`. */
  lemma SliceChars(s: string, a: string, r: string)
    requires |a| <= |s| && a == s[|s| - |a|..]
    requires |r| <= |a| && r == a[..|r|]
    ensures forall c :: c in r ==> c in s
  {
    forall c | c in r
      ensures c in s
    {
      var i :| 0 <= i < |r| && r[i] == c;
      assert a[i] == c;
      assert s[|s| - |a| + i] == c;
    }
  }

  /** `r` is the slice of `s` from `i` on, with only white space before and after it. */
  predicate TrimmedAt(s: string, r: string, i: int) {
    && 0 <= i <= |s| - |r|
    && r == s[i..i + |r|]
    && (forall k :: 0 <= k < i ==> IsSpace(s[k]))
    && (forall k :: i + |r| <= k < |s| ==> IsSpace(s[k]))
  }

  /** A suffix of `s` cut to a prefix of itself is a slice of `s`, with the cut-away parts kept apart. */
  lemma SliceOfSuffix(s: string, a: string, r: string)
    requires |a| <= |s| && a == s[|s| - |a|..]
    requires |r| <= |a| && r == a[..|r|]
    ensures r == s[|s| - |a|..|s| - |a| + |r|]
    ensures forall k :: |s| - |a| + |r| <= k < |s| ==> s[k] == a[k - (|s| - |a|)]
  {
  }

  /**
   `trim`: the name without leading and trailing white space. The result is a slice of
   the name with only white space cut away on either side; it is empty exactly when the
   name is all white space, and otherwise starts and ends with a visible character.
   */
  function Trim(s: string): (r: string)
    ensures |r| <= |s|
    ensures exists i :: TrimmedAt(s, r, i)
    ensures |r| > 0 ==> !IsSpace(r[0]) && !IsSpace(r[|r| - 1])
    ensures r == [] <==> forall k :: 0 <= k < |s| ==> IsSpace(s[k])
    ensures forall c :: c in r ==> c in s
  {
    var a := TrimStart(s);
    var r := TrimEnd(a);
    SliceChars(s, a, r);
    SliceOfSuffix(s, a, r);
    assert TrimmedAt(s, r, |s| - |a|);
    if r == [] then
      TrimEndEmpty(a);
      SpaceThenSpace(s, a);
      r
    else
      assert r[0] == a[0];
      assert !IsSpace(s[|s| - |a|]);
      r
  }

  /**
   Trimming is determined by its contract: any slice of the name with only white space
   on either side, and empty or with visible characters at both ends, is the trim.
   */
  lemma TrimUnique(s: string, t: string, i: int)
    requires TrimmedAt(s, t, i)
    requires |t| > 0 ==> !IsSpace(t[0]) && !IsSpace(t[|t| - 1])
    ensures t == Trim(s)
  {
    var r := Trim(s);
    var j :| TrimmedAt(s, r, j);
    if |t| == 0 {
      forall k | 0 <= k < |s|
        ensures IsSpace(s[k])
      {
        assert k < i || i + |t| <= k;
      }
    } else {
      assert s[i] == t[0] && s[i + |t| - 1] == t[|t| - 1];
      assert |r| > 0;
      assert s[j] == r[0] && s[j + |r| - 1] == r[|r| - 1];
      assert i == j;
      assert |t| == |r|;
    }
  }

  /** The name stored for a submission: the trimmed name, or "Anonymous" if nothing is left. */
  function EntryName(typed: string): (name: string)
    ensures name == Trim(typed) || name == "Anonymous"
    ensures name == "Anonymous" <==> Trim(typed) == [] || Trim(typed) == "Anonymous"
    ensures |name| > 0 && !IsSpace(name[0])
  {
    var t := Trim(typed);
    if t != [] then t else "Anonymous"
  }

  /**
   Records a finished game: the entry is appended, the table re-sorted by score with
   the highest first, and cut to ten rows. The result is always a valid table holding
   only old rows and the new entry.
   */
  function InsertLeaderboard(board: seq<Entry>, typed: string, score: int, today: string): (r: seq<Entry>)
    ensures BoardValid(r)
    ensures |r| == if |board| + 1 < CAPACITY then |board| + 1 else CAPACITY
    ensures multiset(r) <= multiset(board) + multiset{Entry(EntryName(typed), score, today)}
  {
    var sorted := SortDesc(board + [Entry(EntryName(typed), score, today)]);
    var r := Take(sorted, CAPACITY);
    assert sorted == r + sorted[|r|..];
    assert multiset(sorted) == multiset(r) + multiset(sorted[|r|..]);
    r
  }

  /**
   On a valid table the insertion is the single stable insertion step: the new entry
   goes after every row scoring at least as much, and it survives the cut exactly when
   fewer than ten rows are ahead of it.
   */
  lemma InsertIntoValidBoard(board: seq<Entry>, typed: string, score: int, today: string)
    requires SortedDesc(board)
    ensures var e := Entry(EntryName(typed), score, today);
      InsertLeaderboard(board, typed, score, today) == Take(InsertDesc(board, e), CAPACITY)
    ensures var e := Entry(EntryName(typed), score, today);
      InsertIndex(board, e) < CAPACITY ==> e in InsertLeaderboard(board, typed, score, today)
  {
    var e := Entry(EntryName(typed), score, today);
    var s := board + [e];
    assert s[..|s| - 1] == board;
    SortDescOfSorted(board);
    InsertDescShape(board, e);
    var k := InsertIndex(board, e);
    if k < CAPACITY {
      assert InsertDesc(board, e)[k] == e;
    }
  }

  /**
   The name prompt after a cash-out (App.tsx:218-220): offered when the table has room
   or the score beats its lowest row.
   */
  function DeservesPrompt(board: seq<Entry>, score: int): (ask: bool)
    ensures ask <==> |board| < CAPACITY || score > board[|board| - 1].score
  {
    var minScore := if |board| >= CAPACITY then board[|board| - 1].score else 0;
    score > minScore || |board| < CAPACITY
  }

  /** On a valid table, a game that is offered the prompt always makes it onto the table. */
  lemma PromptedScoreIsRanked(board: seq<Entry>, typed: string, score: int, today: string)
    requires BoardValid(board)
    requires DeservesPrompt(board, score)
    ensures Entry(EntryName(typed), score, today) in InsertLeaderboard(board, typed, score, today)
  {
    var e := Entry(EntryName(typed), score, today);
    InsertIntoValidBoard(board, typed, score, today);
    if |board| >= CAPACITY {
      assert board[|board| - 1].score < score;
      assert InsertIndex(board, e) < CAPACITY;
    }
  }
}

=== FILE: physics.dfy ===
/**
 The player token and its vertical motion (App.tsx:367-406): gravity, the ceiling
 clamp and the three floor branches (extra life, penalised touch, invincible pin).
 The money side of a penalised floor touch is applied by the game tick.
 */
module Physics {
  import opened Tables

  /** Status flags are cleared by host timers the model does not see; the tick only reads and sets them. */
  datatype Player = Player(
    y: real,
    vy: real,
    invincible: bool,
    speedBoost: bool,
    doublePoints: bool,
    frozen: bool,
    extraLives: int)

  /** The lowest the token's top edge may be: the floor line. */
  const FLOOR_Y: real := GAME_HEIGHT - PLAYER_SIZE

  /** The flat penalty of touching the floor (App.tsx:380). */
  const FLOOR_PENALTY: int := 300000

  /** What a tick's fall ended in. */
  datatype Landing = Airborne | Ceiling | Pinned | LifeSpent | Penalised

  /**
   One tick of motion. The new position uses the velocity from before the tick, while
   the velocity gains gravity. Above the top the token is clamped to 0; below the floor
   a banked extra life is spent, otherwise the touch is penalised, both recentring the
   token with an upward kick of 1.5 jumps and granting invincibility; an invincible
   token is just pinned to the floor.
   */
  function Fall(p: Player): (r: (Player, Landing))
    ensures 0.0 <= r.0.y <= FLOOR_Y
    ensures r.1 == Penalised <==> p.y + p.vy > FLOOR_Y && !p.invincible && p.extraLives <= 0
    ensures r.1 == LifeSpent <==> p.y + p.vy > FLOOR_Y && !p.invincible && p.extraLives > 0
    ensures r.1 == Pinned <==> p.y + p.vy > FLOOR_Y && p.invincible
    ensures r.1 == LifeSpent ==> r.0.extraLives == p.extraLives - 1
    ensures r.1 != LifeSpent ==> r.0.extraLives == p.extraLives
    ensures r.1 in {LifeSpent, Penalised} ==>
      r.0.y == GAME_HEIGHT / 2.0 && r.0.vy == JUMP_FORCE * 1.5 && r.0.invincible
    ensures r.1 == Pinned ==> r.0.y == FLOOR_Y && r.0.vy == p.vy + GRAVITY
    ensures r.1 in {Airborne, Ceiling} ==> r.0.vy == p.vy + GRAVITY && r.0.invincible == p.invincible
    ensures r.1 == Airborne ==> r.0.y == p.y + p.vy
    ensures r.1 == Ceiling <==> p.y + p.vy < 0.0
    ensures r.1 == Ceiling ==> r.0.y == 0.0
    ensures r.1 == Pinned ==> r.0.invincible
    ensures r.0.speedBoost == p.speedBoost && r.0.doublePoints == p.doublePoints && r.0.frozen == p.frozen
  {
    var vy' := p.vy + GRAVITY;
    var newY := p.y + p.vy;
    if newY < 0.0 then
      (p.(y := 0.0, vy := vy'), Ceiling)
    else if newY > FLOOR_Y then
      if !p.invincible && p.extraLives > 0 then
        (p.(y := GAME_HEIGHT / 2.0, vy := JUMP_FORCE * 1.5, invincible := true,
            extraLives := p.extraLives - 1), LifeSpent)
      else if !p.invincible then
        (p.(y := GAME_HEIGHT / 2.0, vy := JUMP_FORCE * 1.5, invincible := true), Penalised)
      else
        (p.(y := FLOOR_Y, vy := vy'), Pinned)
    else
      (p.(y := newY, vy := vy'), Airborne)
  }

  /** Without the floor or ceiling in reach the token moves ballistically: two ticks add 2v + g. */
  lemma {:induction false} FreeFallTwoTicks(p: Player)
    requires Fall(p).1 == Airborne && Fall(Fall(p).0).1 == Airborne
    ensures Fall(Fall(p).0).0.y == p.y + 2.0 * p.vy + GRAVITY
    ensures Fall(Fall(p).0).0.vy == p.vy + 2.0 * GRAVITY
  {
    var q := Fall(p).0;
    assert q.y == p.y + p.vy && q.vy == p.vy + GRAVITY;
  }
}

=== FILE: spawner.dfy ===
/**
 The spawner (App.tsx:451-512): the shrinking obstacle interval after the grace
 period, the archetype draw that withholds the margin call below score 500, the
 score-dependent gap size and its bounded placement, and the powerup cadence with
 its random gate. Random draws are parameters in [0, 1).
 */
module Spawning {
  import opened Wrappers
  import opened Tables
  import opened Entities

  /** The frame counter and the spawn bookkeeping held in refs by the source. */
  datatype Spawner = Spawner(frame: int, lastObstacle: int, lastPowerup: int, interval: real)

  predicate SpawnerValid(sp: Spawner) {
    && 0 <= sp.lastObstacle <= sp.frame
    && 0 <= sp.lastPowerup <= sp.frame
    && MIN_OBSTACLE_INTERVAL <= sp.interval <= INITIAL_OBSTACLE_INTERVAL
  }

  /** The spawner of a fresh game (App.tsx:195-198). */
  function FreshSpawner(): (sp: Spawner)
    ensures SpawnerValid(sp) && sp.frame == 0
    ensures sp.interval == INITIAL_OBSTACLE_INTERVAL && sp.lastObstacle == 0 && sp.lastPowerup == 0
  {
    Spawner(0, 0, 0, INITIAL_OBSTACLE_INTERVAL)
  }

  /** `Math.floor(r * n)`: a uniform index into a list of n items. */
  function PickIndex(r: real, n: int): (i: int)
    requires 0.0 <= r < 1.0 && n > 0
    ensures 0 <= i < n
    ensures i as real <= r * n as real < (i + 1) as real
  {
    assert r * n as real < n as real by {
      assert (1.0 - r) * (n as real) > 0.0;
    }
    (r * n as real).Floor
  }

  /** Every index is drawn: the draw i/n picks item i, so no item of the list is unreachable. */
  lemma PickIndexOnto(i: int, n: int)
    requires 0 <= i < n
    ensures 0.0 <= i as real / n as real < 1.0
    ensures PickIndex(i as real / n as real, n) == i
  {
    var r := i as real / n as real;
    assert r * n as real == i as real;
    assert r < 1.0 by {
      assert r * n as real < n as real;
    }
  }

  /** `Math.max(MIN_OBSTACLE_INTERVAL, interval * DIFFICULTY_INCREASE_RATE)`. */
  function DecayInterval(interval: real): (r: real)
    ensures r >= MIN_OBSTACLE_INTERVAL
    ensures interval >= MIN_OBSTACLE_INTERVAL ==> r <= interval
    ensures r >= interval * DIFFICULTY_INCREASE_RATE
    ensures r == MIN_OBSTACLE_INTERVAL || r == interval * DIFFICULTY_INCREASE_RATE
  {
    var decayed := interval * DIFFICULTY_INCREASE_RATE;
    if decayed > MIN_OBSTACLE_INTERVAL then decayed else MIN_OBSTACLE_INTERVAL
  }

  /** The catalogue with one archetype filtered out, in catalogue order. */
  function Without(ts: seq<ObstacleKind>, k: ObstacleKind): (r: seq<ObstacleKind>)
    ensures forall x :: x in r <==> x in ts && x != k
    ensures |r| <= |ts|
  {
    if |ts| == 0 then []
    else if ts[0] == k then Without(ts[1..], k)
    else [ts[0]] + Without(ts[1..], k)
  }

  /** The archetypes the draw picks from: everything, but the margin call only from score 500. */
  function AvailableTypes(score: int): (ts: seq<ObstacleKind>)
    ensures forall k :: k in ts ==> k in OBSTACLE_TYPES
    ensures Margin in ts <==> score >= 500
    ensures forall k :: k in OBSTACLE_TYPES && k != Margin ==> k in ts
    ensures |ts| > 0
  {
    if score < 500 then
      var ts := Without(OBSTACLE_TYPES, Margin);
      assert Fud in ts;
      ts
    else OBSTACLE_TYPES
  }

  /** `GAP_SIZE + 30 * (1 - Math.min(1, score / 5000))`: the gap narrows linearly to 200 at score 5000. */
  function GapSizeFor(score: int): (g: real)
    ensures score >= 0 ==> 200.0 <= g <= 230.0
    ensures score >= 5000 ==> g == GAP_SIZE
    ensures score == 0 ==> g == GAP_SIZE + 30.0
    ensures score <= 5000 ==> g == GAP_SIZE + 30.0 - 30.0 * score as real / 5000.0
  {
    var ratio := score as real / 5000.0;
    var m := if 1.0 < ratio then 1.0 else ratio;
    GAP_SIZE + 30.0 * (1.0 - m)
  }

  /** A higher score never widens the gap. */
  lemma GapNarrowsWithScore(s1: int, s2: int)
    requires s1 <= s2
    ensures GapSizeFor(s2) <= GapSizeFor(s1)
  {
  }

  /** The archetype-specific state a freshly spawned column starts with. */
  function InitialArchetype(k: ObstacleKind, dirDraw: real): (a: Archetype)
    ensures a.Kind() == k
    ensures ArchetypeValid(a)
  {
    match k
    case Fud => FudNews
    case Margin => MarginBomb(0)
    case Whale => WhaleBob(0, if dirDraw > 0.5 then 1 else -1)
    case Fomo => FomoZone
    case Ice => IceZone
  }

  /** `80 + r * (GAME_HEIGHT - gapSize - 160)`: a gap top leaving 80 clear above and below. */
  function PlaceGap(gapSize: real, r: real): (gapY: real)
    requires 0.0 <= r < 1.0
    ensures gapSize < GAME_HEIGHT - 160.0 ==> 80.0 <= gapY && gapY + gapSize < GAME_HEIGHT - 80.0
    ensures r == 0.0 ==> gapY == 80.0
  {
    var room := GAME_HEIGHT - gapSize - 160.0;
    ScaledDrawBelow(r, room);
    assert room > 0.0 ==> 80.0 + r * room + gapSize < GAME_HEIGHT - 80.0;
    80.0 + r * room
  }

  /** A larger draw places the gap strictly lower. */
  lemma PlaceGapIncreases(gapSize: real, r1: real, r2: real)
    requires 0.0 <= r1 < r2 < 1.0 && gapSize < GAME_HEIGHT - 160.0
    ensures PlaceGap(gapSize, r1) < PlaceGap(gapSize, r2)
  {
    var room := GAME_HEIGHT - gapSize - 160.0;
    ScaledOrder(PlaceGap(gapSize, r1), PlaceGap(gapSize, r2), r1, r2, room);
  }

  /** Two points `80 + r·room` of one positive range are ordered as their draws. */
  lemma ScaledOrder(y1: real, y2: real, r1: real, r2: real, room: real)
    requires y1 == 80.0 + r1 * room && y2 == 80.0 + r2 * room
    requires r1 < r2 && room > 0.0
    ensures y1 < y2
  {
    assert (r2 - r1) * room > 0.0;
  }

  /** Every gap top leaving 80 clear above and below is placed by some draw. */
  lemma PlaceGapOnto(gapSize: real, y: real)
    requires gapSize < GAME_HEIGHT - 160.0
    requires 80.0 <= y && y + gapSize < GAME_HEIGHT - 80.0
    ensures exists r :: 0.0 <= r < 1.0 && PlaceGap(gapSize, r) == y
  {
    var room := GAME_HEIGHT - gapSize - 160.0;
    var r := (y - 80.0) / room;
    assert r * room == y - 80.0;
    assert r < 1.0 by {
      assert y - 80.0 < room;
      QuotientBelowOne(y - 80.0, room);
    }
    assert PlaceGap(gapSize, r) == 80.0 + r * room;
  }

  /**
   A new column at the right edge: an archetype drawn from those the score allows, the
   score's gap size, and a gap top drawn in [80, GAME_HEIGHT - gap - 80).
   */
  function SpawnObstacle(score: int, typeDraw: real, gapDraw: real, dirDraw: real): (o: Obstacle)
    requires 0.0 <= typeDraw < 1.0 && 0.0 <= gapDraw < 1.0
    ensures o.x == GAME_WIDTH && !o.passed
    ensures o.arch.Kind() in AvailableTypes(score)
    ensures o.arch.Kind() == AvailableTypes(score)[PickIndex(typeDraw, |AvailableTypes(score)|)]
    ensures score < 500 ==> o.arch.Kind() != Margin
    ensures o.dynamicGap == GapSizeFor(score) && o.gapY == PlaceGap(GapSizeFor(score), gapDraw)
    ensures o.arch == InitialArchetype(o.arch.Kind(), dirDraw)
    ensures score >= 0 ==> ObstacleValid(o)
  {
    var available := AvailableTypes(score);
    var kind := available[PickIndex(typeDraw, |available|)];
    var gapSize := GapSizeFor(score);
    Obstacle(GAME_WIDTH, PlaceGap(gapSize, gapDraw), gapSize, InitialArchetype(kind, dirDraw), false)
  }

  /** Every archetype the score allows spawns for some draw: from score 500 that includes the margin call. */
  lemma EveryTypeSpawns(score: int, k: ObstacleKind, gapDraw: real, dirDraw: real)
    requires k in AvailableTypes(score) && 0.0 <= gapDraw < 1.0
    ensures exists d :: 0.0 <= d < 1.0 && SpawnObstacle(score, d, gapDraw, dirDraw).arch.Kind() == k
  {
    var ts := AvailableTypes(score);
    var i :| 0 <= i < |ts| && ts[i] == k;
    PickIndexOnto(i, |ts|);
    var d := i as real / |ts| as real;
    assert SpawnObstacle(score, d, gapDraw, dirDraw).arch.Kind() == k;
  }

  /** A part smaller than a positive whole is less than one whole of it. */
  lemma QuotientBelowOne(part: real, whole: real)
    requires whole > 0.0 && part < whole
    ensures part / whole < 1.0
  {
  }

  /** A draw in [0, 1) scales a positive range to a point strictly inside it. */
  lemma ScaledDrawBelow(r: real, range: real)
    requires 0.0 <= r < 1.0
    ensures range > 0.0 ==> 0.0 <= r * range < range
  {
    if range > 0.0 {
      assert (1.0 - r) * range > 0.0;
    }
  }

  /**
   The obstacle half of the spawner, on the tick's (already advanced) frame: after the
   grace period the interval decays, and a column spawns once more frames than the
   interval have gone by since the last one.
   */
  function SpawnObstacleStep(sp: Spawner, score: int, typeDraw: real, gapDraw: real, dirDraw: real)
    : (r: (Spawner, Option<Obstacle>))
    requires 0.0 <= typeDraw < 1.0 && 0.0 <= gapDraw < 1.0
    ensures sp.frame <= GRACE_PERIOD ==> r == (sp, None)
    ensures sp.frame > GRACE_PERIOD ==> r.0.interval == DecayInterval(sp.interval)
    ensures r.1.Some? <==> sp.frame > GRACE_PERIOD && (sp.frame - sp.lastObstacle) as real > r.0.interval
    ensures r.1.Some? ==> r.0.lastObstacle == sp.frame && r.1.value == SpawnObstacle(score, typeDraw, gapDraw, dirDraw)
    ensures r.1.None? ==> r.0.lastObstacle == sp.lastObstacle
    ensures r.1.Some? ==> sp.frame - sp.lastObstacle > 100
    ensures r.0.frame == sp.frame && r.0.lastPowerup == sp.lastPowerup
    ensures SpawnerValid(sp) ==> SpawnerValid(r.0) && r.0.interval <= sp.interval
  {
    if sp.frame > GRACE_PERIOD then
      var interval := DecayInterval(sp.interval);
      if (sp.frame - sp.lastObstacle) as real > interval then
        (sp.(interval := interval, lastObstacle := sp.frame), Some(SpawnObstacle(score, typeDraw, gapDraw, dirDraw)))
      else
        (sp.(interval := interval), None)
    else
      (sp, None)
  }

  /**
   The powerup half of the spawner: more than 200 frames since the last powerup and a
   draw under the spawn chance give a random powerup at the right edge, 100 to 500 high.
   */
  function SpawnPowerupStep(sp: Spawner, gate: real, typeDraw: real, yDraw: real): (r: (Spawner, Option<Powerup>))
    requires 0.0 <= typeDraw < 1.0 && 0.0 <= yDraw < 1.0
    ensures r.1.Some? <==> sp.frame - sp.lastPowerup > POWERUP_INTERVAL && gate < POWERUP_SPAWN_CHANCE
    ensures r.1.Some? ==> r.0 == sp.(lastPowerup := sp.frame)
    ensures r.1.Some? ==> r.1.value.x == GAME_WIDTH && PowerupValid(r.1.value) && r.1.value.kind in POWERUP_TYPES
    ensures r.1.Some? ==> r.1.value.kind == POWERUP_TYPES[PickIndex(typeDraw, |POWERUP_TYPES|)]
    ensures r.1.Some? ==> r.1.value.y == PowerupHeight(yDraw)
    ensures r.1.None? ==> r.0 == sp
    ensures SpawnerValid(sp) ==> SpawnerValid(r.0)
  {
    if sp.frame - sp.lastPowerup > POWERUP_INTERVAL && gate < POWERUP_SPAWN_CHANCE then
      var kind := POWERUP_TYPES[PickIndex(typeDraw, |POWERUP_TYPES|)];
      (sp.(lastPowerup := sp.frame), Some(Powerup(GAME_WIDTH, PowerupHeight(yDraw), kind)))
    else
      (sp, None)
  }

  /** `100 + r * (GAME_HEIGHT - 200)`: a powerup height in [100, 500), the draw being its fraction of that band. */
  function PowerupHeight(yDraw: real): (y: real)
    requires 0.0 <= yDraw < 1.0
    ensures 100.0 <= y < GAME_HEIGHT - 100.0
    ensures (y - 100.0) / (GAME_HEIGHT - 200.0) == yDraw
  {
    100.0 + yDraw * (GAME_HEIGHT - 200.0)
  }

  /** Every height in [100, 500) is drawn, and every powerup kind is. */
  lemma EveryPowerupSpawns(sp: Spawner, gate: real, k: PowerupKind, y: real)
    requires sp.frame - sp.lastPowerup > POWERUP_INTERVAL && gate < POWERUP_SPAWN_CHANCE
    requires 100.0 <= y < GAME_HEIGHT - 100.0
    ensures exists kd, yd :: 0.0 <= kd < 1.0 && 0.0 <= yd < 1.0 && SpawnPowerupStep(sp, gate, kd, yd).1 == Some(Powerup(GAME_WIDTH, y, k))
  {
    var i := match k case Coffee => 0 case Shield => 1 case Rocket => 2 case Diamond => 3;
    PickIndexOnto(i, |POWERUP_TYPES|);
    var kd := i as real / |POWERUP_TYPES| as real;
    var yd := (y - 100.0) / (GAME_HEIGHT - 200.0);
    assert PowerupHeight(yd) == y;
    assert SpawnPowerupStep(sp, gate, kd, yd).1 == Some(Powerup(GAME_WIDTH, y, k));
  }

  /** The interval only shrinks: over any number of post-grace decays it stays in [100, 180]. */
  lemma {:induction false} IntervalStaysInRange(interval: real, n: nat)
    requires MIN_OBSTACLE_INTERVAL <= interval <= INITIAL_OBSTACLE_INTERVAL
    ensures MIN_OBSTACLE_INTERVAL <= DecayTimes(interval, n) <= interval
    decreases n
  {
    if n > 0 {
      IntervalStaysInRange(DecayInterval(interval), n - 1);
    }
  }

  /** The interval after n post-grace ticks. */
  function DecayTimes(interval: real, n: nat): real
    decreases n
  {
    if n == 0 then interval else DecayTimes(DecayInterval(interval), n - 1)
  }
}

=== FILE: tables.dfy ===
/** Optional values, used for the table lookups and the nullable event fields. */
module Wrappers {
  datatype Option<+T> = None | Some(value: T)
}

/**
 The static tables of the game (constants.ts): playfield geometry, the economy
 and difficulty constants, the obstacle, powerup and market-mover catalogues and
 the reward tables keyed by archetype name. Only the fields the game logic reads
 are kept; emoji, colours, labels and display names are left out.
 */
module Tables {
  import opened Wrappers

  // Playfield geometry and physics (constants.ts:4-11).
  const GAME_WIDTH: real := 800.0
  const GAME_HEIGHT: real := 600.0
  const GRAVITY: real := 0.5
  const JUMP_FORCE: real := -11.0
  const PLAYER_SIZE: real := 50.0
  const OBSTACLE_WIDTH: real := 60.0
  const GAP_SIZE: real := 200.0
  const GAME_SPEED: real := 3.5

  // Economy (constants.ts:15-16).
  const STARTING_CAPITAL: int := 10000000
  const MIN_CAPITAL: int := 0

  // Difficulty (constants.ts:19-26).
  const INITIAL_OBSTACLE_INTERVAL: real := 180.0
  const MIN_OBSTACLE_INTERVAL: real := 100.0
  const DIFFICULTY_INCREASE_RATE: real := 0.995
  const POWERUP_SPAWN_CHANCE: real := 0.5
  const POWERUP_INTERVAL: int := 200
  const GRACE_PERIOD: int := 120

  /** The five obstacle archetypes; `Key` is the string the reward table is indexed by. */
  datatype ObstacleKind = Fud | Margin | Whale | Fomo | Ice {
    function Key(): string {
      match this
      case Fud => "fud"
      case Margin => "margin"
      case Whale => "whale"
      case Fomo => "fomo"
      case Ice => "ice"
    }
  }

  /** `OBSTACLE_TYPES`, in catalogue order (the order matters for the random pick). */
  const OBSTACLE_TYPES: seq<ObstacleKind> := [Fud, Margin, Whale, Fomo, Ice]

  /** An entry without `hitType` is a flat amount; `'percent'` is a fraction of capital. */
  datatype HitType = Flat | Percent

  /** One `OBSTACLE_REWARDS` entry: the pass reward and the (negative) hit value. */
  datatype RewardDef = RewardDef(pass: int, hit: real, hitType: HitType)

  const OBSTACLE_REWARDS: map<string, RewardDef> := map[
    "fud" := RewardDef(500000, -200000.0, Flat),
    "margin" := RewardDef(1000000, -0.3, Percent),
    "whale" := RewardDef(800000, -500000.0, Flat),
    "fomo" := RewardDef(600000, -400000.0, Flat),
    "ice" := RewardDef(400000, -100000.0, Flat)
  ]

  /** The four powerup archetypes. */
  datatype PowerupKind = Coffee | Shield | Rocket | Diamond {
    function Key(): string {
      match this
      case Coffee => "coffee"
      case Shield => "shield"
      case Rocket => "rocket"
      case Diamond => "diamond"
    }
  }

  /** `POWERUP_TYPES`, in catalogue order. */
  const POWERUP_TYPES: seq<PowerupKind> := [Coffee, Shield, Rocket, Diamond]

  const POWERUP_BONUSES: map<string, int> := map[
    "coffee" := 100000,
    "shield" := 200000,
    "rocket" := 500000,
    "diamond" := 300000
  ]

  /** The speed effect a market-mover quote carries. */
  datatype MarketEffect = Pump | Dump | Chaos {
    function Key(): string {
      match this
      case Pump => "pump"
      case Dump => "dump"
      case Chaos => "chaos"
    }
  }

  /** The keys of `MARKET_EFFECTS` (its values are display data only). */
  const MARKET_EFFECTS: set<string> := {"pump", "dump", "chaos"}

  datatype Quote = Quote(effect: MarketEffect, marketImpact: int)
  datatype MarketMover = MarketMover(id: string, quotes: seq<Quote>)

  const MARKET_MOVERS: seq<MarketMover> := [
    MarketMover("tech_billionaire", [
      Quote(Chaos, 15), Quote(Pump, 20), Quote(Pump, 10), Quote(Dump, -25), Quote(Chaos, 0)]),
    MarketMover("fed_chair", [
      Quote(Dump, -15), Quote(Dump, -20), Quote(Pump, 10), Quote(Pump, 25), Quote(Dump, -18)]),
    MarketMover("crypto_whale", [
      Quote(Pump, 20), Quote(Dump, -25), Quote(Pump, 15), Quote(Pump, 12), Quote(Dump, -20)]),
    MarketMover("stock_guru", [
      Quote(Pump, 15), Quote(Dump, -18), Quote(Pump, 12), Quote(Pump, 10), Quote(Dump, -15)])
  ]

  /** `OBSTACLE_REWARDS[key]?.pass || 500000`: a missing entry or a zero reward falls back. */
  function PassRewardOf(key: string): (r: int)
    ensures key in OBSTACLE_REWARDS && OBSTACLE_REWARDS[key].pass != 0 ==> r == OBSTACLE_REWARDS[key].pass
    ensures key !in OBSTACLE_REWARDS ==> r == 500000
    ensures r > 0
  {
    if key in OBSTACLE_REWARDS && OBSTACLE_REWARDS[key].pass != 0 then OBSTACLE_REWARDS[key].pass else 500000
  }

  /** `POWERUP_BONUSES[key] || 100000`: a missing entry or a zero bonus falls back. */
  function BonusOf(key: string): (r: int)
    ensures key in POWERUP_BONUSES && POWERUP_BONUSES[key] != 0 ==> r == POWERUP_BONUSES[key]
    ensures key !in POWERUP_BONUSES ==> r == 100000
    ensures r > 0
  {
    if key in POWERUP_BONUSES && POWERUP_BONUSES[key] != 0 then POWERUP_BONUSES[key] else 100000
  }

  /** Every obstacle archetype has a reward entry, so the pass fallback is never taken. */
  lemma RewardTableCovers(k: ObstacleKind)
    requires k in OBSTACLE_TYPES
    ensures k.Key() in OBSTACLE_REWARDS
    ensures PassRewardOf(k.Key()) == OBSTACLE_REWARDS[k.Key()].pass
  {
    match k
    case Fud =>
    case Margin =>
    case Whale =>
    case Fomo =>
    case Ice =>
  }

  /** Every pass reward is positive and every hit negative; `margin` alone is a percentage, 0.3. */
  lemma RewardSigns(k: ObstacleKind)
    ensures k.Key() in OBSTACLE_REWARDS
    ensures OBSTACLE_REWARDS[k.Key()].pass > 0
    ensures OBSTACLE_REWARDS[k.Key()].hit < 0.0
    ensures OBSTACLE_REWARDS[k.Key()].hitType == Percent <==> k == Margin
    ensures k == Margin ==> OBSTACLE_REWARDS[k.Key()].hit == -0.3
    ensures k != Margin ==> OBSTACLE_REWARDS[k.Key()].hit == OBSTACLE_REWARDS[k.Key()].hit.Floor as real
  {
    match k
    case Fud =>
    case Margin =>
    case Whale =>
    case Fomo =>
    case Ice =>
  }

  /** Every powerup archetype has a positive bonus, so the 100000 fallback is never taken. */
  lemma BonusTableCovers(k: PowerupKind)
    ensures k.Key() in POWERUP_BONUSES
    ensures POWERUP_BONUSES[k.Key()] > 0
    ensures BonusOf(k.Key()) == POWERUP_BONUSES[k.Key()]
  {
    match k
    case Coffee =>
    case Shield =>
    case Rocket =>
    case Diamond =>
  }

  /** The difficulty ramp is well formed: floor below start, a shrinking rate, a probability. */
  lemma DifficultyConstants()
    ensures MIN_OBSTACLE_INTERVAL <= INITIAL_OBSTACLE_INTERVAL
    ensures 0.0 < DIFFICULTY_INCREASE_RATE < 1.0
    ensures 0.0 <= POWERUP_SPAWN_CHANCE <= 1.0
    ensures 0 < GRACE_PERIOD && 0 < POWERUP_INTERVAL
  {
  }

  /** The gap-placement range `GAME_HEIGHT - gap - 160` stays positive for the widest gap. */
  lemma GapPlacementRange()
    ensures GAME_HEIGHT - (GAP_SIZE + 30.0) - 160.0 > 0.0
  {
  }

  /** A fresh game starts strictly above the bankruptcy threshold. */
  lemma StartingCapitalSolvent()
    ensures STARTING_CAPITAL > MIN_CAPITAL
  {
  }

  /** Every persona can speak, and every quote's effect has a `MARKET_EFFECTS` entry. */
  lemma MarketMoverData(i: nat, j: nat)
    requires i < |MARKET_MOVERS|
    ensures |MARKET_MOVERS[i].quotes| > 0
    ensures j < |MARKET_MOVERS[i].quotes| ==> MARKET_MOVERS[i].quotes[j].effect.Key() in MARKET_EFFECTS
  {
  }
}
